=== FILE: README.md ===
# csi server: request routing, modelled in Dafny

This project models the request-routing core of `server.js`, the development
server of csi. The server resolves a request URL in one of two ways:

- a **module**: it renders an HTML index page that loads the module with
  RequireJS and QUnit, plus a companion stylesheet for an optimized build bundle;
- a **static file**: it sends the file's bytes.

A list of middlewares runs before routing. A middleware may fail the
request, or answer it itself.

The model is a set of pure functions over strings. The disk, the index
template and the middlewares' results are passed in as values, so every
request is a function from its inputs to an optional response.

| file | module | what it holds |
|---|---|---|
| `wrappers.dfy` | `Wrappers` | `Option` (the `undefined`-or-value convention), `EndsWith` |
| `paths.dfy` | `Paths` | Node's posix `path.join`, `normalize`, `basename`, `dirname`, `extname`, without `..` resolution |
| `optimized.dfy` | `Optimized` | `optimizedModuleId` and the regular expression it tests |
| `base_url.dfy` | `BaseUrl` | `removeBaseUrl` and the leftmost-match reading of its `replace` |
| `urls.dfy` | `Urls` | the URL's pathname, and the URL before its first `?` |
| `classifier.dfy` | `Classifier` | the `RouteDecision` of `serveRequest`: branch choice, file names, companion CSS |
| `responders.dfy` | `Responders` | `contentType`, `serveError`, `serve404`, `serveFile`, `serveIndex`, `isTest` |
| `middleware.dfy` | `Middleware` | the `async.series` run of the middlewares and its verdict |
| `logging.dfy` | `Logging` | the colour `log` picks for a status |
| `server.dfy` | `Server` | `createServer`'s defaults and the whole handler for one request |

Where the code's behaviour is easy to misread, the model follows the code:

- **The middleware series does not stop at a handled result.** `async.series`
  runs every middleware and stops only at an error (server.js:170-177).
  - A handled result followed by a failure is therefore a 500 (`Middleware.HandledThenFailed`).
  - Only when nothing failed does a truthy result skip routing.
- **Error responses carry no `Content-Length`.** 404 and 500 responses are
  written with `defaultHeaders`, which has no length. Only the two 200
  responses declare one (`Server.ResponseShape`).
- **An unknown extension leaves `Content-Type` undefined.** `_.extend` copies
  the `undefined` value over the `text/plain` default. The model writes this as
  `contentType == None`.
- **`jsPath` loses one leading separator.** It is the pathname minus one
  leading separator, not the pathname unmodified (server.js:144).
- **A root directly under `/` with an equal base URL gives a relative path.**
  With root `/app` and base URL `/app`, `removeBaseUrl` removes the whole root,
  leading `/` included. The script checked for `/widgets/foo` is then
  `app/widgets/foo.js`, relative to the working directory, not
  `/app/widgets/foo.js` (`Classifier.ModuleFileOfTopLevelRoot`). Static files
  are then read relative to the working directory too: `/app/site.css` reads
  `app/site.css` (`Classifier.StaticFileOfTopLevelRoot`). A root with a parent
  directory, such as `/srv/app`, behaves as intended
  (`Classifier.ModuleFileInsideRoot`, `Classifier.StaticFileInsideRoot`).

Paths are `/`-separated strings. `Paths.Join` is Node's `path.join`:

- empty arguments are skipped;
- `"."` results when nothing is left;
- empty and `.` segments collapse;
- a trailing separator is kept;
- the result is absolute exactly when the first non-empty part is.

`Paths.Join` states the segments and `Paths.JoinEnds` the rest.

It abstracts Node in one way: `..` segments are kept as they are, not resolved.

## Model

| member | source | states |
|---|---|---|
| Optimized.OptimizedModuleId | server.js:28-32 | when an id is returned, id + ".js" is the basename, so the id keeps any ".min"; the id is at least 33 characters long |
| Optimized.OptimizedModuleIdMatchesPattern | server.js:29-30 | an id is returned exactly when the basename matches `.*-[a-f0-9]{32}(?:\.min)?\.js$` |
| Optimized.HashNeedsExactly32Digits | server.js:29 | with hexadecimal digits after the '-', an id is returned exactly when there are 32 of them; 31 or 33 give nothing |
| Optimized.HashNeedsLowerHex | server.js:29 | with 32 characters after the '-', an id is returned exactly when all are lower-case hexadecimal; upper-case digits give nothing |
| BaseUrl.RemoveBaseUrl | server.js:133-136 | the result is a prefix of the root; the root is unchanged unless it ends with the base URL less its leading separator; otherwise the pattern matches from the cut |
| BaseUrl.RemoveBaseUrlIsLeftmostMatch | server.js:134-135 | the cut is at the leftmost index where `[\/\\]?X$` matches, and no cut happens where it matches nowhere |
| BaseUrl.RemovedTextIsBase | server.js:134 | the removed text is the base URL less its leading separator, with at most one separator before it |
| BaseUrl.RemoveBaseUrlOfNestedRoot | server.js:133-136 | a root `prefix/X` loses exactly `/X` |
| BaseUrl.RemoveBaseUrlOfTopLevelRoot | server.js:133-136 | a root `/X` is emptied completely |
| Urls.Pathname | server.js:130 | the pathname is the URL up to its first '?' or '#' and holds neither |
| Urls.BeforeQuery | server.js:102 | `split('?')[0]`: the URL up to its first '?', holding none |
| Urls.BeforeQueryCutsAtQuery | server.js:102 | `path?query` is cut back to `path` when `path` has no '?' |
| Classifier.HasExtensionMatchesPattern | server.js:137 | the extension scan holds exactly when `\.[a-z0-9]+$` (flag i) matches somewhere |
| Classifier.Classify | server.js:137-157 | exactly one of ModuleIndex, StaticFile, NotFound; StaticFile iff not a module request; ModuleIndex iff a module request whose script exists; jsPath is the pathname less one leading separator; the static file is the stripped root joined with the pathname less one '/' |
| Classifier.ClassifyBranches | server.js:137-157 | a path is served as a file exactly when the extension pattern matches and it does not end in ".min"; otherwise it takes the module branch |
| Classifier.ModuleExamples | server.js:137 | "/widgets/foo", "/a-0123.min" and "/styles/app." take the module branch |
| Classifier.FileExamples | server.js:137 | "/a.MIN", "/a.min.js" and "/styles/app.css" take the file branch: ".min" is matched in lower case only |
| Classifier.RequestedPathSegments | server.js:131-132 | `requested` has the base URL's segments then the path's with ".js", is relative, is non-empty and ends in the path's last piece plus ".js" |
| Classifier.ModuleFileUnderRoot | server.js:138 | the checked script has the stripped root's segments, then the base URL's, then the path's with ".js" |
| Classifier.ModuleFileInsideRoot | server.js:133-138 | for a root `prefix/X` with base URL X, the checked script is the root joined with the path plus ".js" |
| Classifier.ModuleFileOfTopLevelRoot | server.js:133-138 | for a root `/X` with base URL X, the checked script is relative |
| Classifier.StaticFileUnderRoot | server.js:155 | the static file has the stripped root's segments, then the path's |
| Classifier.StaticFileInsideRoot | server.js:155 | for a root `prefix/X` and a path `/X/rest`, the static file has the root's segments then the rest's, and with a non-empty prefix and rest it is exactly the root joined with `rest` |
| Classifier.StaticFileOfTopLevelRoot | server.js:155 | for a root `/X` with base URL X and a path `/X/rest`, the static file has the base URL's then the rest's segments and is relative, not inside the root |
| Classifier.StaticExtname | server.js:155-156 | for any path with an extension, the extension the file is typed by is the one the classifier found, except that a name like ".css" has none |
| Classifier.StaticNameExtension | server.js:137-156 | a path `stem.ext`, with `ext` letters and digits not ending in 'n', takes the file branch, and its file has extension ".ext" when the last piece of `stem` is not empty |
| Classifier.CompanionCss | server.js:139-141 | a stylesheet is given exactly when `optimizedModuleId` returns an id, and it ends in ".css" |
| Classifier.ModuleBasename | server.js:138-139 | the checked script's basename is the path's last piece plus ".js" |
| Classifier.ModuleCompanionCss | server.js:139-141 | a served module has a stylesheet exactly when its last piece plus ".js" matches the bundle pattern, and then it is `join(baseUrl, dirname(pathname), lastPiece + ".css")` |
| Responders.ContentType | server.js:14-18 | "html" maps to text/html, "css" to text/css and "js" to application/javascript, each exactly for that key, and every other key to undefined |
| Responders.WithBody | server.js:89-92 | The headers keep the default Cache-Control and carry exactly the given Content-Type, an undefined one included, and the given Content-Length. |
| Responders.ServeError | server.js:67-72 | status 500, the default headers, and the error text followed by one newline |
| Responders.Serve404 | server.js:74-77 | status 404, the default headers, and the body "not found" |
| Responders.ErrorStatus | server.js:81-87 | 404 exactly for the code ENOENT, 500 for any other error |
| Responders.TypeKey | server.js:90 | the lookup key is empty exactly when Node's extension is "" or "."; otherwise it is the dot-free text after the basename's last dot, the extension without its dot |
| Responders.TypeKeyOfDotted | server.js:90 | a basename `stem.ext` with a non-empty stem and a dot-free extension is looked up by `ext` |
| Responders.TypeKeyOfLeadingDot | server.js:90 | a basename such as ".css", whose only dot comes first, has the empty key, so its content type is undefined |
| Responders.ServeFile | server.js:79-96 | a failed read gives the error status with the default headers: ENOENT gives exactly `serve404`'s response, any other error the 500 of its text; a read gives 200, the data, and the type of the extension |
| Responders.StaticContentType | server.js:89-92 | a file named `stem.ext` is typed by `ext` |
| Responders.IsTest | server.js:102 | true exactly when "test", in any ASCII case, occurs before the first '?' |
| Responders.ContainsTestFindsMatch | server.js:102 | the left-to-right scan finds a match exactly when one exists |
| Responders.IsTestIgnoresQuery | server.js:102 | a query string never changes the flag |
| Responders.IsTestExample | server.js:102 | "/test/widget" is a test page |
| Responders.IsTestAnyCaseExample | server.js:102 | "/lib/TeSt" is a test page: the match ignores case |
| Responders.NotTestExample | server.js:102 | "/widget" is not a test page |
| Responders.IndexParamsFor | server.js:101-118 | the template gets the test flag of the URL, the given jsPath and css, and `extra` or "" |
| Responders.IndexScriptsUnderCsi | server.js:101-113 | the QUnit and RequireJS scripts have the base URL's segments, then `paths.csi`'s, then their own name |
| Responders.ServeIndex | server.js:98-127 | a failed template gives the 500 of its error; otherwise 200, HTML, the rendered page, and its UTF-8 length |
| Responders.Utf8LengthOfAscii | server.js:122 | the byte length equals the character count exactly when every character is ASCII |
| Responders.Utf8LengthConcat | server.js:122 | byte lengths add up over concatenation |
| Responders.SuccessDeclaresLength | server.js:89-123 | every 200 of `serveFile` and `serveIndex` declares the byte length of its body |
| Middleware.FirstFailure | server.js:170 | everything before the index completed, and the index is a failure or the end |
| Middleware.RunChain | server.js:170-177 | Abort exactly when some middleware failed, with the first failure's text; Intercepted exactly when none failed and one handled; Proceed otherwise, so an empty list proceeds |
| Middleware.RunSeries | server.js:167-170 | the loop's verdict is the fold's, and it invokes the middlewares up to the first failure, or all of them |
| Middleware.RunChainConcat | server.js:170-177 | the verdict of two series in a row: first failure, then any handled result, then proceed |
| Middleware.HandledThenFailed | server.js:170-177 | a handled result followed by a failure still aborts with that failure |
| Middleware.RunChainSwap | server.js:170-177 | swapping two runs of middlewares keeps whether the series aborts and, when it does not, the verdict |
| Middleware.RunChainPermutation | server.js:170-177 | any reordering of the middlewares changes at most which error is reported: whether the series aborts, and otherwise the verdict, stay the same |
| Logging.LineColour | server.js:40-45 | on a terminal: bold red exactly from 500, red exactly from 400 to 499, the requested colour below 400 if one is given; plain off a terminal |
| Logging.SeverityMonotone | server.js:41-43 | a higher status is never logged in a quieter colour |
| Logging.ErrorsIgnoreColour | server.js:41-43 | from 400 on, the requested colour makes no difference |
| Server.DefaultBaseUrl | server.js:162-164 | the default base URL is '/' followed by text without a separator |
| Server.DefaultBaseUrlIsLastSegment | server.js:163 | the default base URL is '/' and the last segment of the resolved directory (the static directory if absolute, else the working directory's segments then its own), or just '/' when there is none |
| Server.DefaultBaseUrlIgnoresDot | server.js:163 | a static directory "/parent/name/." is served under "/name" |
| Server.CreateServer | server.js:160-165 | the root defaults to "./"; a given base URL wins over the default; csi and extra pass through |
| Server.Route | server.js:170-177 | Error exactly when a middleware failed; MiddlewareHandled exactly when none failed and one handled; otherwise the classifier's decision for the URL's pathname |
| Server.Respond | server.js:142-156 | no response exactly for MiddlewareHandled; NotFound gives the 404; Error gives the 500; a static file gives `serveFile`'s answer; a module gives `serveIndex`'s answer for its jsPath and css |
| Server.Handle | server.js:166-179 | the server writes nothing exactly when no middleware failed and one handled the request |
| Server.ResponseColour | server.js:49-51 | `writeHead` never logs in a named colour |
| Server.ResponseShape | server.js:67-127 | every response is 200, 404 or 500 and marked uncacheable; a 200 declares its body's length; the others use the default headers |
| Server.MiddlewareFailureIs500 | server.js:171-172 | a failed middleware gives the 500 of the first failure, whatever the URL and the disk |
| Server.InterceptionIgnoresDisk | server.js:170-176 | until the series proceeds, neither the URL nor the disk matters |
| Server.ModuleRequestServesIndex | server.js:142-148 | a module request whose script exists gets a 200 HTML page rendered with the path less its separator and its companion CSS |
| Server.NotFoundExactly | server.js:142-156 | with no middlewares, the answer is 404 exactly when the module's script is missing or the static file reads back ENOENT |
| Server.StaticRequestServesData | server.js:155-156 | a static file that reads back data gives 200 with its extension's type and its length |
| Server.StaticRequestTypedByExtension | server.js:89-90 | a static request for `stem.html`, `stem.css` or `stem.js` that reads back data is a 200 typed text/html, text/css or application/javascript, when the last piece of `stem` is not empty (a file named `.css` is untyped) |
| Server.LoggedColours | server.js:41-51 | on a terminal, a response is bold red exactly for 500, red exactly for 404, plain exactly for 200 |
| Paths.Join | server.js:131 | the join is non-empty and has exactly the segments of its parts, in order |
| Paths.JoinEnds | server.js:131 | the join is "." when every part is empty; otherwise it is absolute exactly when the first non-empty part is, and ends in a separator when the last non-empty part does |
| Paths.NormalizeIdempotent | server.js:131 | normalizing twice is normalizing once |
| Paths.JoinLastPiece | server.js:140 | when the last part ends in a segment, the join ends with it: it is the basename and no separator follows |
| Paths.Basename | server.js:29 | the basename holds no separator |
| Paths.BasenameOfNormalize | server.js:163 | the basename of a normalized path is its last segment, or empty for the bare root |
| Paths.Extname | server.js:90 | the extension is empty, or a dot and dot-free text that ends the basename |
| Paths.ExtnameOfDotted | server.js:90 | a basename `stem.ext` with a non-empty stem has extension ".ext" |
| Paths.Dirname | server.js:140 | the directory is ".", "/", "//", or a proper prefix that a separator follows |
| Paths.DirnameOfChild | server.js:140 | the directory of `d/name` is `d` |
| Paths.StripLeadingSeparator | server.js:132 | one leading '/' or '\' is dropped, and nothing else changes |
| Paths.StripLeadingSlash | server.js:155 | one leading '/' is dropped, and nothing else changes |

## Left out

- The HTTP listener and `resp.writeHead`/`write`/`end` are not modelled. A response is a value, and file existence and read results are inputs (`Server.Disk`).
- `readIndex`'s process-wide template cache and `_.template` rendering are not modelled. The template is an input: a render function, or the error the first read gave.
- `JSON.stringify(config)` in the template parameters is left out, because it is a library call. `Responders.IndexParams` has no config text.
- The clock, `tty.isatty`, the `colors` package and console output are left out. Only the colour choice is modelled, and the terminal check is a boolean input.
- Logging.LineColour: does not model that `line[color]` is `undefined` for a name the `colors` package does not define.
- `extend(true, …)` deep merge: only `baseUrl` and `paths.csi` are modelled. `path.resolve` reads the working directory, so that directory is a parameter (`cwd`).
- Server.DefaultBaseUrl: `..` segments are not resolved, so a static directory "/srv/app/.." gives "/.." where `path.resolve` gives "/srv". A trailing separator and "." segments are handled as Node does.
- Responders.Config: `paths.csi` is a required string. `createServer`'s default config has no `paths` (server.js:162-164), and `serveIndex` reads `params.config.paths.csi` first (server.js:101). With such a config the first module request whose script exists throws a TypeError inside `readIndex`'s callback, which runs from the `exists` callback. Nothing catches it, so the exception ends the server process. The model has no such crash.
- The `async.series` callback plumbing is left out. The series is a fold over the middlewares' results (`Middleware.RunChain`), and a loop (`Middleware.RunSeries`).
- Middlewares are modelled only by the outcome each reports. They share the request and response objects, and that sharing is not modelled.
- `..` resolution in `path.join`/`normalize` is left out, and `\` is not treated as a path separator.
- Classifier.RequestedPathSegments: assumes that neither the base URL nor the pathname contains `\`. `url.parse` turns `\` into `/` in the pathname, and a base URL is not expected to start with `\`.
- Classifier.ModuleFileUnderRoot: assumes that neither the base URL nor the pathname contains `\`. The reason is the one given for `RequestedPathSegments`.
- Classifier.ModuleFileInsideRoot: assumes that neither the base URL nor the pathname contains `\`. The reason is the one given for `RequestedPathSegments`.
- Classifier.ModuleFileOfTopLevelRoot: assumes that neither the base URL nor the pathname contains `\`. The reason is the one given for `RequestedPathSegments`.
- Classifier.ModuleBasename: assumes that neither the base URL nor the pathname contains `\`. The reason is the one given for `RequestedPathSegments`.
- Classifier.ModuleCompanionCss: assumes that neither the base URL nor the pathname contains `\`. The reason is the one given for `RequestedPathSegments`.
- Classifier.StaticFileInsideRoot: assumes that the base URL contains no `\`, for the reason given for `RequestedPathSegments`.
- Classifier.StaticFileOfTopLevelRoot: assumes that the base URL contains no `\`, for the reason given for `RequestedPathSegments`.
- Regular-expression metacharacters in the base URL are not modelled. The source puts the base URL unescaped into a RegExp, and the model treats it as literal text.
- `url.parse` is left out beyond taking the pathname up to the first '?' or '#': percent-escaping, `\` conversion and absolute-form URLs are not modelled.
- Node's handling of a header whose value is `undefined` is not modelled. That header is the Content-Type of an unknown extension.
- Extensions that name `Object.prototype` keys are left out. `contentType["constructor"]`, for instance, is not a string.
- The first `filename` assignment in the static branch (server.js:154) has no model. It is overwritten on the next line before any use.
- test/build1/static/test.js is not part of this model. It is a browser QUnit fixture with no server logic.

=== FILE: base_url.dfy ===
/**
 * `removeBaseUrl` of server.js: the static root loses a trailing copy of the
 * base URL, so that the root directory and the URL prefix are not counted
 * twice when the two are joined.
 *
 * The source builds the regular expression `[\/\\]?` + X + `$`, where X is
 * the base URL without one leading separator, and replaces its first match
 * with nothing. X is assumed to hold no regular-expression metacharacters.
 */
module BaseUrl {
  import opened Wrappers
  import opened Paths

  /** The base URL as it appears in the pattern: without one leading '/' or '\'. */
  function BaseTail(baseUrl: string): string {
    StripLeadingSeparator(baseUrl)
  }

  /** The pattern `[\/\\]?X$` matches `root` from index `i` on. */
  predicate MatchesAt(root: string, i: int, x: string) {
    0 <= i <= |root|
    && (root[i..] == x || (i < |root| && IsSeparator(root[i]) && root[i + 1..] == x))
  }

  /** `removeBaseUrl(staticDir, baseUrl)`. */
  function RemoveBaseUrl(root: string, baseUrl: string): (r: string)
    ensures |r| <= |root| && r == root[..|r|]
    ensures !EndsWith(root, BaseTail(baseUrl)) ==> r == root
    ensures EndsWith(root, BaseTail(baseUrl)) ==> MatchesAt(root, |r|, BaseTail(baseUrl))
  {
    var x := BaseTail(baseUrl);
    if !EndsWith(root, x) then root
    else
      var k := |root| - |x|;
      if k > 0 && IsSeparator(root[k - 1]) then root[..k - 1] else root[..k]
  }

  /**
   * What `String.prototype.replace` does with the first match: the result
   * is `root` cut at the leftmost index where the pattern matches, and
   * `root` itself when the pattern matches nowhere.
   */
  lemma RemoveBaseUrlIsLeftmostMatch(root: string, baseUrl: string)
    ensures var x := BaseTail(baseUrl);
            var r := RemoveBaseUrl(root, baseUrl);
            && ((forall i :: !MatchesAt(root, i, x)) ==> r == root)
            && ((exists i :: MatchesAt(root, i, x)) ==> MatchesAt(root, |r|, x))
            && (forall i :: MatchesAt(root, i, x) ==> |r| <= i)
  {
    var x := BaseTail(baseUrl);
    var r := RemoveBaseUrl(root, baseUrl);
    forall i | MatchesAt(root, i, x) ensures EndsWith(root, x) && |r| <= i {
      if root[i..] != x {
        assert root[i + 1..] == x;
        assert root[i..][1..] == root[i + 1..];
        assert root[|root| - |x|..] == root[i + 1..];
        assert i == |root| - |x| - 1;
        assert IsSeparator(root[|root| - |x| - 1]);
      } else {
        assert root[|root| - |x|..] == root[i..];
      }
    }
  }

  /** At most one separator goes with the base URL: the removed text is X or a separator and X. */
  lemma RemovedTextIsBase(root: string, baseUrl: string)
    requires EndsWith(root, BaseTail(baseUrl))
    ensures var r := RemoveBaseUrl(root, baseUrl);
            var removed := root[|r|..];
            removed == BaseTail(baseUrl)
            || (|removed| == |BaseTail(baseUrl)| + 1 && IsSeparator(removed[0])
                && removed[1..] == BaseTail(baseUrl))
  {
    var r := RemoveBaseUrl(root, baseUrl);
    if |r| < |root| {
      assert root[|r|..][1..] == root[|r| + 1..];
    }
  }

  /** A root that is some directory followed by "/" and the base URL loses exactly that suffix. */
  lemma RemoveBaseUrlOfNestedRoot(prefix: string, baseUrl: string)
    ensures RemoveBaseUrl(prefix + "/" + BaseTail(baseUrl), baseUrl) == prefix
  {
    var x := BaseTail(baseUrl);
    var root := prefix + "/" + x;
    assert root[|root| - |x|..] == x;
    assert root[|root| - |x| - 1] == '/';
    assert root[..|root| - |x| - 1] == prefix;
  }

  /**
   * A root that is just "/" and the base URL is emptied completely: the
   * leading separator of the absolute path goes with the match.
   */
  lemma RemoveBaseUrlOfTopLevelRoot(baseUrl: string)
    ensures RemoveBaseUrl("/" + BaseTail(baseUrl), baseUrl) == ""
  {
    RemoveBaseUrlOfNestedRoot("", baseUrl);
    assert "" + "/" + BaseTail(baseUrl) == "/" + BaseTail(baseUrl);
  }
}

=== FILE: classifier.dfy ===
/**
 * The routing decision of `serveRequest` in server.js. A URL path either
 * names a module (the generated index page loads it) or a file under the
 * static root. Which one depends only on the shape of the path; whether a
 * module exists is asked of the `fileExists` predicate, which stands for the
 * asynchronous `fs.exists` check.
 */
module Classifier {
  import opened Wrappers
  import opened Paths
  import opened BaseUrl
  import opened Optimized

  /** What the server does with one request. */
  datatype RouteDecision =
    | ModuleIndex(jsPath: string, css: Option<string>)  // render the index page for this module
    | StaticFile(filename: string)                      // read and send this file
    | NotFound                                          // the module's script does not exist
    | MiddlewareHandled                                 // a middleware answered; nothing routed
    | Error(message: string)                            // a middleware failed

  /** A character of `[a-z0-9]` under the `i` flag. */
  predicate IsAlphaNum(c: char) {
    'a' <= c <= 'z' || 'A' <= c <= 'Z' || '0' <= c <= '9'
  }

  /** The length of the longest run of letters and digits that ends `p`. */
  function AlphaNumTail(p: string): (n: nat)
    ensures n <= |p|
    ensures forall j :: |p| - n <= j < |p| ==> IsAlphaNum(p[j])
    ensures n < |p| ==> !IsAlphaNum(p[|p| - n - 1])
    decreases |p|
  {
    if p == [] || !IsAlphaNum(p[|p| - 1]) then 0
    else 1 + AlphaNumTail(p[..|p| - 1])
  }

  /** `/\.[a-z0-9]+$/i.test(p)`: `p` ends with a dot and at least one letter or digit. */
  predicate HasExtension(p: string) {
    var n := AlphaNumTail(p);
    0 < n < |p| && p[|p| - n - 1] == '.'
  }

  /** The pattern `\.[a-z0-9]+$` (flag `i`) matches `p` from index `k` on. */
  ghost predicate ExtensionAt(p: string, k: int) {
    0 <= k < |p| - 1 && p[k] == '.' && forall j :: k < j < |p| ==> IsAlphaNum(p[j])
  }

  /** The condition of the module branch: no extension, or a (case-sensitive) ".min" ending. */
  predicate IsModuleRequest(pathname: string) {
    !HasExtension(pathname) || EndsWith(pathname, ".min")
  }

  /** `requested`: the base URL joined with the path and ".js", less one leading separator. */
  function RequestedPath(baseUrl: string, pathname: string): string {
    StripLeadingSeparator(Join([baseUrl, pathname + ".js"]))
  }

  /** The script whose existence decides a module request. */
  function ModuleFilename(root: string, baseUrl: string, pathname: string): string {
    Join([RemoveBaseUrl(root, baseUrl), RequestedPath(baseUrl, pathname)])
  }

  /** The file a static request reads. */
  function StaticFilename(root: string, baseUrl: string, pathname: string): string {
    Join([RemoveBaseUrl(root, baseUrl), StripLeadingSlash(pathname)])
  }

  /** The stylesheet that goes with an optimized bundle, beside the requested path under the base URL. */
  function CompanionCss(baseUrl: string, pathname: string, filename: string): (css: Option<string>)
    ensures css.Some? <==> OptimizedModuleId(filename).Some?
    ensures css.Some? ==> EndsWith(css.value, ".css")
  {
    match OptimizedModuleId(filename)
    case Some(id) =>
      var dir := Dirname(pathname);
      JoinCssEnding(baseUrl, dir, id);
      Some(Join([baseUrl, dir, id + ".css"]))
    case None => None
  }

  /** The decision `serveRequest` takes for a URL path, given which files exist. */
  function Classify(pathname: string, root: string, baseUrl: string, fileExists: string -> bool): (d: RouteDecision)
    ensures d.ModuleIndex? || d.StaticFile? || d.NotFound?
    ensures d.StaticFile? <==> !IsModuleRequest(pathname)
    ensures d.ModuleIndex? <==> IsModuleRequest(pathname) && fileExists(ModuleFilename(root, baseUrl, pathname))
    ensures d.ModuleIndex? ==> d.jsPath == StripLeadingSeparator(pathname)
    ensures d.StaticFile? ==> d.filename == StaticFilename(root, baseUrl, pathname)
  {
    if IsModuleRequest(pathname) then
      var filename := ModuleFilename(root, baseUrl, pathname);
      var css := CompanionCss(baseUrl, pathname, filename);
      if fileExists(filename) then ModuleIndex(StripLeadingSeparator(pathname), css) else NotFound
    else
      StaticFile(StaticFilename(root, baseUrl, pathname))
  }

  // ---------------------------------------------------------------------
  // Lemmas: which branch
  // ---------------------------------------------------------------------

  /** The scan agrees with the regular expression `/\.[a-z0-9]+$/i`. */
  lemma HasExtensionMatchesPattern(p: string)
    ensures HasExtension(p) <==> exists k :: ExtensionAt(p, k)
  {
    var n := AlphaNumTail(p);
    if HasExtension(p) {
      assert ExtensionAt(p, |p| - n - 1);
    }
    if exists k :: ExtensionAt(p, k) {
      var k :| ExtensionAt(p, k);
      assert !IsAlphaNum(p[k]);
      assert n == |p| - k - 1;
    }
  }

  /**
   * The two branches are exclusive and together cover every path: a path
   * is served as a file exactly when it matches `\.[a-z0-9]+$` and does not
   * end in ".min".
   */
  lemma ClassifyBranches(pathname: string, root: string, baseUrl: string, fileExists: string -> bool)
    ensures var d := Classify(pathname, root, baseUrl, fileExists);
            && (d.StaticFile? <==> (exists k :: ExtensionAt(pathname, k)) && !EndsWith(pathname, ".min"))
            && (d.ModuleIndex? || d.NotFound? <==> !(exists k :: ExtensionAt(pathname, k)) || EndsWith(pathname, ".min"))
  {
    HasExtensionMatchesPattern(pathname);
  }

  /** Examples of the module branch: no extension, a ".min" ending, or a dot with nothing after it. */
  lemma ModuleExamples()
    ensures IsModuleRequest("/widgets/foo")
    ensures IsModuleRequest("/a-0123.min")
    ensures IsModuleRequest("/styles/app.")
  {
    AlphaNumTailIs("/widgets/foo", 3);
    AlphaNumTailIs("/styles/app.", 0);
  }

  /** Examples of the file branch; ".min" is recognised in lower case only. */
  lemma FileExamples()
    ensures !IsModuleRequest("/a.MIN")
    ensures !IsModuleRequest("/a.min.js")
    ensures !IsModuleRequest("/styles/app.css")
  {
    AlphaNumTailIs("/a.MIN", 3);
    AlphaNumTailIs("/a.min.js", 2);
    AlphaNumTailIs("/styles/app.css", 3);
  }

  /** The run of letters and digits ending `p` is determined by the first character before it that is neither. */
  lemma AlphaNumTailIs(p: string, n: nat)
    requires n < |p| && !IsAlphaNum(p[|p| - n - 1])
    requires forall j :: |p| - n <= j < |p| ==> IsAlphaNum(p[j])
    ensures AlphaNumTail(p) == n
  {
  }

  // ---------------------------------------------------------------------
  // Lemmas: file names
  // ---------------------------------------------------------------------

  /** With no '\' about, the requested path has the segments of the base URL and then those of the path. */
  lemma RequestedPathSegments(baseUrl: string, pathname: string)
    requires '\\' !in baseUrl && '\\' !in pathname
    ensures var req := RequestedPath(baseUrl, pathname);
            && Segments(req) == Segments(baseUrl) + Segments(pathname + ".js")
            && req == StripLeadingSlash(Join([baseUrl, pathname + ".js"]))
            && LastPiece(req) == LastPiece(pathname) + ".js"
            && req != "" && !IsAbsolute(req) && !HasTrailingSep(req)
  {
    var pj := pathname + ".js";
    var parts := [baseUrl, pj];
    var j := Join(parts);
    var req := StripLeadingSlash(j);
    assert RequestedPath(baseUrl, pathname) == req by {
      assert '\\' !in pj;
      JoinOmits(parts, '\\');
    }
    assert Segments(j) == Segments(baseUrl) + Segments(pj) by {
      SegmentsOfTwo(baseUrl, pj);
    }
    assert Segments(req) == Segments(j) by {
      if IsAbsolute(j) {
        SegmentsOfSlashPrefix(req);
      }
    }
    assert IsSegment(LastPiece(pj)) && LastPiece(pj) == LastPiece(pathname) + ".js" by {
      SplitAppend(pathname, ".js");
    }
    assert LastPiece(req) == LastPiece(pj) by {
      LastPieceOfJoin(baseUrl, pj);
      BasenameIsLastPiece(j);
      LastPieceStripSlash(j);
    }
    assert !HasTrailingSep(req) && req != "" by {
      LastPieceNotTrailing(req);
      assert LastPiece("") == "" by { assert Split("") == [""]; }
    }
    assert !IsAbsolute(req) by {
      assert Segments(pj) != [] by { SegmentsEndWithLastPiece(pj); }
      JoinSecondChar(parts);
    }
  }

  /**
   * The script a module request checks has the segments of the stripped
   * root, then those of the base URL, then those of the path with ".js".
   */
  lemma ModuleFileUnderRoot(root: string, baseUrl: string, pathname: string)
    requires '\\' !in baseUrl && '\\' !in pathname
    ensures Segments(ModuleFilename(root, baseUrl, pathname))
         == Segments(RemoveBaseUrl(root, baseUrl)) + Segments(baseUrl) + Segments(pathname + ".js")
  {
    var req := RequestedPath(baseUrl, pathname);
    var stripped := RemoveBaseUrl(root, baseUrl);
    assert Segments(ModuleFilename(root, baseUrl, pathname)) == Segments(stripped) + Segments(req) by {
      SegmentsOfTwo(stripped, req);
    }
    assert Segments(req) == Segments(baseUrl) + Segments(pathname + ".js") by {
      RequestedPathSegments(baseUrl, pathname);
    }
    ConcatAssociates(Segments(stripped), Segments(baseUrl), Segments(pathname + ".js"));
  }

  /**
   * When the root is a directory followed by the base URL, the script a
   * module request checks is the path with ".js" taken inside the root.
   */
  lemma ModuleFileInsideRoot(prefix: string, baseUrl: string, pathname: string)
    requires prefix != ""
    requires '\\' !in baseUrl && '\\' !in pathname
    ensures var root := prefix + "/" + BaseTail(baseUrl);
            ModuleFilename(root, baseUrl, pathname) == Join([root, pathname + ".js"])
  {
    var x := BaseTail(baseUrl);
    var root := prefix + "/" + x;
    var pj := pathname + ".js";
    var req := RequestedPath(baseUrl, pathname);
    assert RemoveBaseUrl(root, baseUrl) == prefix by {
      RemoveBaseUrlOfNestedRoot(prefix, baseUrl);
    }
    assert req != "" && !HasTrailingSep(req)
        && Segments(req) == Segments(baseUrl) + Segments(pj) by {
      RequestedPathSegments(baseUrl, pathname);
    }
    assert Segments(root) == Segments(prefix) + Segments(baseUrl) by {
      SegmentsConcat(prefix, x);
      BaseTailSegments(baseUrl);
    }
    assert IsAbsolute(root) == IsAbsolute(prefix) by {
      assert root[0] == prefix[0];
    }
    assert !HasTrailingSep(pj) by {
      assert pj[|pj| - 1] == 's';
    }
    assert ModuleFilename(root, baseUrl, pathname) == Join([prefix, req]);
    var sp, sb, sj := Segments(prefix), Segments(baseUrl), Segments(pj);
    ConcatAssociates(sp, sb, sj);
    assert root != "" && pj != "";
    JoinTwoByShape(prefix, req, root, pj);
  }

  /**
   * A root directly under the file-system root, equal to the base URL
   * (root "/app", base URL "/app"), loses its leading '/' with the match:
   * the script checked is then a relative path.
   */
  lemma ModuleFileOfTopLevelRoot(baseUrl: string, pathname: string)
    requires '\\' !in baseUrl && '\\' !in pathname
    ensures var f := ModuleFilename("/" + BaseTail(baseUrl), baseUrl, pathname);
            !IsAbsolute(f) && Segments(f) == Segments(baseUrl) + Segments(pathname + ".js")
  {
    var req := RequestedPath(baseUrl, pathname);
    RemoveBaseUrlOfTopLevelRoot(baseUrl);
    RequestedPathSegments(baseUrl, pathname);
    JoinTwo("", req);
  }

  /** The stripped root, then the path: the segments of the file a static request reads. */
  lemma StaticFileUnderRoot(root: string, baseUrl: string, pathname: string)
    ensures Segments(StaticFilename(root, baseUrl, pathname))
         == Segments(RemoveBaseUrl(root, baseUrl)) + Segments(pathname)
  {
    var rel := StripLeadingSlash(pathname);
    SegmentsOfTwo(RemoveBaseUrl(root, baseUrl), rel);
    if IsAbsolute(pathname) {
      SegmentsOfSlashPrefix(rel);
    }
  }

  /**
   * When the root is a directory followed by the base URL, a URL path that
   * starts with the base URL reads the rest of the path inside the root:
   * the segments always line up, and with a parent directory and a
   * non-empty rest the file is exactly the root joined with the rest.
   */
  lemma StaticFileInsideRoot(prefix: string, baseUrl: string, rest: string)
    requires '\\' !in baseUrl
    ensures var root := prefix + "/" + BaseTail(baseUrl);
            var pathname := "/" + BaseTail(baseUrl) + "/" + rest;
            Segments(StaticFilename(root, baseUrl, pathname)) == Segments(root) + Segments(rest)
    ensures var root := prefix + "/" + BaseTail(baseUrl);
            var pathname := "/" + BaseTail(baseUrl) + "/" + rest;
            prefix != "" && rest != "" ==> StaticFilename(root, baseUrl, pathname) == Join([root, rest])
  {
    var x := BaseTail(baseUrl);
    var root := prefix + "/" + x;
    var pathname := "/" + x + "/" + rest;
    RemoveBaseUrlOfNestedRoot(prefix, baseUrl);
    assert Segments(StaticFilename(root, baseUrl, pathname)) == Segments(root) + Segments(rest) by {
      var sp, sx, sr := Segments(prefix), Segments(x), Segments(rest);
      StaticFileUnderRoot(root, baseUrl, pathname);
      AbsolutePairSegments(x, rest);
      SegmentsConcat(prefix, x);
      ConcatAssociates(sp, sx, sr);
    }
    if prefix != "" && rest != "" {
      assert pathname == "/" + (x + "/" + rest) by {
        ConcatAssociates("/", x, "/");
        ConcatAssociates("/", x + "/", rest);
      }
      StaticFileOfRelative(root, baseUrl, x + "/" + rest);
      JoinUnderNestedRoot(prefix, x, rest);
    }
  }

  /** A path "/" + t reads `t` under the root less its base URL. */
  lemma StaticFileOfRelative(root: string, baseUrl: string, t: string)
    ensures StaticFilename(root, baseUrl, "/" + t) == Join([RemoveBaseUrl(root, baseUrl), t])
  {
    assert ("/" + t)[1..] == t;
  }

  /** Joining `prefix` with `x/rest` is joining `prefix/x` with `rest`. */
  lemma JoinUnderNestedRoot(prefix: string, x: string, rest: string)
    requires prefix != "" && rest != ""
    ensures Join([prefix, x + "/" + rest]) == Join([prefix + "/" + x, rest])
  {
    var b := x + "/" + rest;
    var root := prefix + "/" + x;
    var sp, sx, sr := Segments(prefix), Segments(x), Segments(rest);
    assert Segments(prefix) + Segments(b) == Segments(root) + Segments(rest) by {
      SegmentsConcat(x, rest);
      SegmentsConcat(prefix, x);
      ConcatAssociates(sp, sx, sr);
    }
    assert IsAbsolute(root) == IsAbsolute(prefix) by {
      assert root[0] == prefix[0];
    }
    assert HasTrailingSep(b) == HasTrailingSep(rest) by {
      assert b[|b| - 1] == rest[|rest| - 1];
    }
    JoinTwoByShape(prefix, b, root, rest);
  }

  /**
   * A root directly under the file-system root, equal to the base URL
   * (root "/app", base URL "/app"), loses its leading '/' with the match:
   * the static file read is then a relative path.
   */
  lemma StaticFileOfTopLevelRoot(baseUrl: string, rest: string)
    requires '\\' !in baseUrl
    ensures var x := BaseTail(baseUrl);
            var f := StaticFilename("/" + x, baseUrl, "/" + x + "/" + rest);
            Segments(f) == Segments(baseUrl) + Segments(rest)
            && (x != "" && !IsAbsolute(x) ==> !IsAbsolute(f))
  {
    var x := BaseTail(baseUrl);
    var pathname := "/" + x + "/" + rest;
    var b := x + "/" + rest;
    RemoveBaseUrlOfTopLevelRoot(baseUrl);
    assert StripLeadingSlash(pathname) == b by {
      assert pathname == "/" + b;
    }
    JoinTwo("", b);
    assert Segments(b) == Segments(baseUrl) + Segments(rest) by {
      SegmentsConcat(x, rest);
      BaseTailSegments(baseUrl);
    }
    if x != "" {
      assert b[0] == x[0];
    }
  }

  /** The segments of "/" + x + "/" + rest are those of `x`, then those of `rest`. */
  lemma AbsolutePairSegments(x: string, rest: string)
    ensures Segments("/" + x + "/" + rest) == Segments(x) + Segments(rest)
  {
    assert Segments("/" + x + "/" + rest) == Segments(x + "/" + rest) by {
      assert "/" + x + "/" + rest == "/" + (x + "/" + rest);
      SegmentsOfSlashPrefix(x + "/" + rest);
    }
    SegmentsConcat(x, rest);
  }

  /**
   * The extension `serveFile` sees for a static request (or any path with
   * an extension) is the one the classifier found, unless the dot begins the file name (a name such as
   * ".css", which Node gives no extension).
   */
  lemma StaticExtname(root: string, baseUrl: string, pathname: string)
    requires HasExtension(pathname)
    ensures var k := ExtensionDot(pathname);
            Extname(StaticFilename(root, baseUrl, pathname))
              == if LastPiece(pathname[..k]) == "" then "" else pathname[k..]
  {
    StaticExtnameAt(root, baseUrl, pathname, ExtensionDot(pathname));
  }

  /** The index of the dot that starts the extension `\.[a-z0-9]+$` finds. */
  function ExtensionDot(p: string): (k: nat)
    requires HasExtension(p)
    ensures k + 2 <= |p| && p[k] == '.'
    ensures forall j :: k < j < |p| ==> IsAlphaNum(p[j])
  {
    |p| - AlphaNumTail(p) - 1
  }

  /** `StaticExtname` for a path whose tail from index `k` on is a dot and letters or digits. */
  lemma StaticExtnameAt(root: string, baseUrl: string, p: string, k: nat)
    requires k + 2 <= |p| && p[k] == '.'
    requires forall j :: k < j < |p| ==> IsAlphaNum(p[j])
    ensures Extname(StaticFilename(root, baseUrl, p)) == if LastPiece(p[..k]) == "" then "" else p[k..]
  {
    var t := p[k..];
    assert forall j :: 0 < j < |t| ==> IsAlphaNum(t[j]) by {
      forall j | 0 < j < |t| ensures IsAlphaNum(t[j]) {
        assert t[j] == p[k + j];
      }
    }
    var f := StaticFilename(root, baseUrl, p);
    StaticBasenameAt(root, baseUrl, p, k, t);
    ExtnameOfName(f, LastPiece(p[..k]), t);
  }

  /** `StaticBasename` for a path split at index `k` into `p[..k]` and the tail `t`. */
  lemma StaticBasenameAt(root: string, baseUrl: string, p: string, k: nat, t: string)
    requires k <= |p| && t == p[k..]
    requires |t| >= 2 && t[0] == '.'
    requires forall j :: 0 < j < |t| ==> IsAlphaNum(t[j])
    ensures Basename(StaticFilename(root, baseUrl, p)) == LastPiece(p[..k]) + t
  {
    SplitAtIndex(p, k);
    StaticBasename(root, baseUrl, p[..k], t);
  }

  /** The file a path `q` + `t` names, with `t` a dot and letters or digits, has the basename `LastPiece(q) + t`. */
  lemma StaticBasename(root: string, baseUrl: string, q: string, t: string)
    requires |t| >= 2 && t[0] == '.'
    requires forall j :: 0 < j < |t| ==> IsAlphaNum(t[j])
    ensures Basename(StaticFilename(root, baseUrl, q + t)) == LastPiece(q) + t
  {
    var p := q + t;
    LastPieceOfExtension(q, t);
    LastPieceStripSlash(p);
    LastPieceOfJoin(RemoveBaseUrl(root, baseUrl), StripLeadingSlash(p));
  }

  /**
   * A path `stem.ext`, with an extension of letters and digits that does not
   * end in 'n', goes to the file branch; the file it names has Node's
   * extension ".ext" when the last piece of `stem` is not empty.
   */
  lemma StaticNameExtension(root: string, baseUrl: string, stem: string, ext: string)
    requires ext != "" && ext[|ext| - 1] != 'n'
    requires forall k :: 0 <= k < |ext| ==> IsAlphaNum(ext[k])
    requires LastPiece(stem) != ""
    ensures !IsModuleRequest(stem + "." + ext)
    ensures Extname(StaticFilename(root, baseUrl, stem + "." + ext)) == "." + ext
  {
    var t := "." + ext;
    assert !IsModuleRequest(stem + "." + ext) by {
      WordExtensionTail(stem, ext);
    }
    assert forall j :: 0 < j < |t| ==> IsAlphaNum(t[j]) by {
      forall j | 0 < j < |t| ensures IsAlphaNum(t[j]) {
        assert t[j] == ext[j - 1];
      }
    }
    assert stem + "." + ext == stem + t;
    var f := StaticFilename(root, baseUrl, stem + t);
    StaticBasename(root, baseUrl, stem, t);
    ExtnameOfName(f, LastPiece(stem), t);
  }

  /** The extensions of the content-type table are letters that do not end in 'n'. */
  lemma TableExtensionIsWord(ext: string)
    requires ext == "html" || ext == "css" || ext == "js"
    ensures ext != "" && ext[|ext| - 1] != 'n'
    ensures forall k :: 0 <= k < |ext| ==> IsAlphaNum(ext[k])
  {
    if ext == "html" {
      assert ext[0] == 'h' && ext[1] == 't' && ext[2] == 'm' && ext[3] == 'l';
    } else if ext == "css" {
      assert ext[0] == 'c' && ext[1] == 's' && ext[2] == 's';
    } else {
      assert ext[0] == 'j' && ext[1] == 's';
    }
  }

  /** The run of letters ending `stem.ext` is `ext` when `ext` is letters and digits, and ".min" ends it only if "min" ends `ext`. */
  lemma WordExtensionTail(stem: string, ext: string)
    requires ext != "" && ext[|ext| - 1] != 'n'
    requires forall k :: 0 <= k < |ext| ==> IsAlphaNum(ext[k])
    ensures AlphaNumTail(stem + "." + ext) == |ext|
    ensures !IsModuleRequest(stem + "." + ext)
  {
    var p := stem + "." + ext;
    forall j | |p| - |ext| <= j < |p| ensures IsAlphaNum(p[j]) {
      assert p[j] == ext[j - |stem| - 1];
    }
    assert p[|p| - |ext| - 1] == '.';
    AlphaNumTailIs(p, |ext|);
    assert p[|p| - 1] == ext[|ext| - 1];
  }

  /** A dot and a run of letters and digits after `q` extend the last piece of `q`. */
  lemma LastPieceOfExtension(q: string, t: string)
    requires |t| >= 2 && t[0] == '.'
    requires forall j :: 0 < j < |t| ==> IsAlphaNum(t[j])
    ensures LastPiece(q + t) == LastPiece(q) + t
    ensures IsSegment(LastPiece(q + t))
  {
    assert '/' !in t by {
      forall i | 0 <= i < |t| ensures t[i] != '/' {
        if i > 0 { assert IsAlphaNum(t[i]); }
      }
    }
    SplitAppend(q, t);
    var b := LastPiece(q) + t;
    assert b[|b| - 1] == t[|t| - 1];
    assert IsAlphaNum(b[|b| - 1]);
  }

  /** Node's extension of a file whose basename is `L` followed by a dot and letters or digits. */
  lemma ExtnameOfName(f: string, L: string, t: string)
    requires Basename(f) == L + t
    requires |t| >= 2 && t[0] == '.'
    requires forall j :: 0 < j < |t| ==> IsAlphaNum(t[j])
    ensures Extname(f) == if L == "" then "" else t
  {
    var b := L + t;
    assert b[|L|] == '.';
    assert forall j :: |L| < j < |b| ==> IsAlphaNum(b[j]) by {
      forall j | |L| < j < |b| ensures IsAlphaNum(b[j]) {
        assert b[j] == t[j - |L|];
      }
    }
    var d := LastDot(b);
    assert d == |L|;
    assert b != ".." by {
      assert IsAlphaNum(b[|b| - 1]);
    }
    assert b[|L|..] == t;
  }

  // ---------------------------------------------------------------------
  // Lemmas: the companion stylesheet
  // ---------------------------------------------------------------------

  /** With no '\' about, the script a module request checks is named after the last piece of the path. */
  lemma ModuleBasename(root: string, baseUrl: string, pathname: string)
    requires '\\' !in baseUrl && '\\' !in pathname
    ensures Basename(ModuleFilename(root, baseUrl, pathname)) == LastPiece(pathname) + ".js"
  {
    var req := RequestedPath(baseUrl, pathname);
    RequestedPathSegments(baseUrl, pathname);
    LastPieceOfJoin(RemoveBaseUrl(root, baseUrl), req);
  }

  /**
   * A module request comes with a companion stylesheet exactly when the
   * last piece of its path, with ".js", matches the optimized-bundle
   * pattern; the stylesheet then sits beside the path under the base URL
   * and carries the path's name.
   */
  lemma ModuleCompanionCss(pathname: string, root: string, baseUrl: string, fileExists: string -> bool)
    requires '\\' !in baseUrl && '\\' !in pathname
    requires Classify(pathname, root, baseUrl, fileExists).ModuleIndex?
    ensures var css := Classify(pathname, root, baseUrl, fileExists).css;
            && (css.Some? <==> MatchesOptimizedPattern(LastPiece(pathname) + ".js"))
            && (css.Some? ==> css.value == Join([baseUrl, Dirname(pathname), LastPiece(pathname) + ".css"]))
  {
    var filename := ModuleFilename(root, baseUrl, pathname);
    ModuleBasename(root, baseUrl, pathname);
    OptimizedModuleIdMatchesPattern(filename);
    var id := OptimizedModuleId(filename);
    if id.Some? {
      assert id.value == (id.value + ".js")[..|id.value|];
      assert LastPiece(pathname) == (LastPiece(pathname) + ".js")[..|LastPiece(pathname)|];
    }
  }

  // ---------------------------------------------------------------------
  // Helpers
  // ---------------------------------------------------------------------

  lemma JoinCssEnding(a: string, b: string, id: string)
    requires id != ""
    ensures EndsWith(Join([a, b, id + ".css"]), ".css")
  {
    var c := id + ".css";
    var lp := LastPiece(c);
    assert IsSegment(lp) && EndsWith(lp, ".css") by {
      SplitAppend(id, ".css");
    }
    var r := Join([a, b, c]);
    assert EndsWith(r, lp) by {
      JoinLastPiece([a, b, c]);
    }
    assert r[|r| - |lp|..][|lp| - 4..] == r[|r| - 4..];
  }

  /** The base URL and its tail have the same segments when it holds no '\'. */
  lemma BaseTailSegments(baseUrl: string)
    requires '\\' !in baseUrl
    ensures Segments(BaseTail(baseUrl)) == Segments(baseUrl)
  {
    if |baseUrl| > 0 && IsSeparator(baseUrl[0]) {
      assert baseUrl == "/" + BaseTail(baseUrl);
      SegmentsOfSlashPrefix(BaseTail(baseUrl));
    }
  }
}

=== FILE: logging.dfy ===
/**
 * The colour `log` in server.js gives a request line. On a terminal, server
 * errors are bold red, client errors red, and anything else takes the
 * colour the caller names, if any. Off a terminal, lines are not coloured.
 * The clock and the terminal output themselves are not modelled.
 */
module Logging {
  import opened Wrappers

  datatype Colour = BoldRed | Red | Named(name: string) | Plain

  /** The colour of a line for `statusCode`, given the requested colour and whether stdout is a terminal. */
  function LineColour(status: int, colour: Option<string>, isTty: bool): (c: Colour)
    ensures c == BoldRed <==> isTty && status >= 500
    ensures c == Red <==> isTty && 400 <= status < 500
    ensures c.Named? <==> isTty && status < 400 && colour.Some?
    ensures c.Named? ==> c.name == colour.value
  {
    if !isTty then Plain
    else if status >= 500 then BoldRed
    else if status >= 400 then Red
    else match colour
      case Some(name) => Named(name)
      case None => Plain
  }

  /** How loud a colour is: bold red over red over everything else. */
  function Severity(c: Colour): nat {
    match c
    case BoldRed => 2
    case Red => 1
    case _ => 0
  }

  /** A worse status is never logged in a quieter colour. */
  lemma SeverityMonotone(s1: int, s2: int, colour: Option<string>, isTty: bool)
    requires s1 <= s2
    ensures Severity(LineColour(s1, colour, isTty)) <= Severity(LineColour(s2, colour, isTty))
  {
  }

  /** From 400 on, the requested colour makes no difference. */
  lemma ErrorsIgnoreColour(status: int, c1: Option<string>, c2: Option<string>, isTty: bool)
    requires status >= 400
    ensures LineColour(status, c1, isTty) == LineColour(status, c2, isTty)
  {
  }
}

=== FILE: middleware.dfy ===
/**
 * The middleware outcome of `createServer` in server.js. Each middleware is
 * run in turn (`async.series`); the first one to fail stops the series and
 * its error becomes a 500. Otherwise, if any middleware answered the request
 * (a truthy result), the server routes nothing; else it routes the request.
 *
 * A handled result does not stop the series: later middlewares still run,
 * and a failure after a handled result still produces a 500.
 */
module Middleware {

  /** What one middleware hands its callback: an error, or a result that is truthy or not. */
  datatype Outcome = Failed(errorText: string) | Completed(handled: bool)

  /** What the server does after the series. */
  datatype Verdict = Abort(errorText: string) | Intercepted | Proceed

  /** The index of the first failed outcome, or the length when none failed. */
  function FirstFailure(steps: seq<Outcome>): (i: nat)
    ensures i <= |steps|
    ensures forall j :: 0 <= j < i ==> steps[j].Completed?
    ensures i < |steps| ==> steps[i].Failed?
  {
    if steps == [] || steps[0].Failed? then 0 else 1 + FirstFailure(steps[1..])
  }

  predicate AnyFailed(steps: seq<Outcome>) {
    exists i :: 0 <= i < |steps| && steps[i].Failed?
  }

  predicate AnyHandled(steps: seq<Outcome>) {
    exists i :: 0 <= i < |steps| && steps[i] == Completed(true)
  }

  /** The series as a fold: the verdict for `steps`, one middleware at a time. */
  function RunChain(steps: seq<Outcome>): (v: Verdict)
    ensures v.Abort? <==> AnyFailed(steps)
    ensures v.Abort? ==> FirstFailure(steps) < |steps| && v.errorText == steps[FirstFailure(steps)].errorText
    ensures v.Intercepted? <==> !AnyFailed(steps) && AnyHandled(steps)
    ensures v.Proceed? <==> !AnyFailed(steps) && !AnyHandled(steps)
    decreases |steps|
  {
    if steps == [] then Proceed
    else
      var rest := RunChain(steps[1..]);
      assert forall i :: 1 <= i < |steps| ==> steps[i] == steps[1..][i - 1];
      match steps[0]
      case Failed(e) => Abort(e)
      case Completed(h) => if rest.Abort? || !h then rest else Intercepted
  }

  /**
   * The series as `async.series` runs it: returns the verdict and how many
   * middlewares were invoked — all of them, or up to the first failure.
   */
  method RunSeries(steps: seq<Outcome>) returns (v: Verdict, invoked: nat)
    ensures v == RunChain(steps)
    ensures invoked == if AnyFailed(steps) then FirstFailure(steps) + 1 else |steps|
  {
    var i := 0;
    var anyHandled := false;
    while i < |steps|
      invariant 0 <= i <= |steps|
      invariant forall j :: 0 <= j < i ==> steps[j].Completed?
      invariant anyHandled <==> exists j :: 0 <= j < i && steps[j] == Completed(true)
    {
      if steps[i].Failed? {
        assert AnyFailed(steps);
        return Abort(steps[i].errorText), i + 1;
      }
      anyHandled := anyHandled || steps[i].handled;
      i := i + 1;
    }
    v := if anyHandled then Intercepted else Proceed;
    invoked := |steps|;
  }

  /**
   * The verdict of two runs one after the other: the first failure wins,
   * then any handled result, else the request is routed.
   */
  lemma {:induction false} RunChainConcat(a: seq<Outcome>, b: seq<Outcome>)
    ensures RunChain(a + b)
         == if RunChain(a).Abort? then RunChain(a)
            else if RunChain(b).Abort? then RunChain(b)
            else if RunChain(a).Intercepted? || RunChain(b).Intercepted? then Intercepted
            else Proceed
    decreases |a|
  {
    if a == [] {
      assert a + b == b;
    } else {
      RunChainConcat(a[1..], b);
      assert (a + b)[1..] == a[1..] + b;
      assert (a + b)[0] == a[0];
    }
  }

  /** A middleware that answers the request does not protect it from a later failure. */
  lemma HandledThenFailed(before: seq<Outcome>, errorText: string, after: seq<Outcome>)
    requires !AnyFailed(before)
    ensures RunChain(before + [Completed(true)] + [Failed(errorText)] + after) == Abort(errorText)
  {
    var steps := before + [Completed(true)] + [Failed(errorText)] + after;
    assert steps[|before| + 1] == Failed(errorText);
    assert forall j :: 0 <= j < |before| ==> steps[j] == before[j];
    assert FirstFailure(steps) == |before| + 1;
  }

  /** The order of the middlewares only matters for which error is reported. */
  lemma {:induction false} RunChainSwap(a: seq<Outcome>, b: seq<Outcome>)
    ensures RunChain(a + b).Abort? == RunChain(b + a).Abort?
    ensures !RunChain(a + b).Abort? ==> RunChain(a + b) == RunChain(b + a)
  {
    RunChainConcat(a, b);
    RunChainConcat(b, a);
  }

  /**
   * Any reordering of the middlewares keeps whether the series aborts and,
   * when it does not, the verdict: only which error is reported can change.
   */
  lemma RunChainPermutation(a: seq<Outcome>, b: seq<Outcome>)
    requires multiset(a) == multiset(b)
    ensures RunChain(a).Abort? == RunChain(b).Abort?
    ensures !RunChain(a).Abort? ==> RunChain(a) == RunChain(b)
  {
    forall x ensures x in a <==> x in b {
      assert x in a <==> x in multiset(a);
      assert x in b <==> x in multiset(b);
    }
    FlagsOfSubset(a, b);
    FlagsOfSubset(b, a);
  }

  /** The flags the verdict depends on only look at which outcomes occur. */
  lemma FlagsOfSubset(a: seq<Outcome>, b: seq<Outcome>)
    requires forall x :: x in a ==> x in b
    ensures AnyFailed(a) ==> AnyFailed(b)
    ensures AnyHandled(a) ==> AnyHandled(b)
  {
    if AnyFailed(a) {
      var i :| 0 <= i < |a| && a[i].Failed?;
      assert a[i] in b;
    }
    if AnyHandled(a) {
      var i :| 0 <= i < |a| && a[i] == Completed(true);
      assert a[i] in b;
    }
  }
}

=== FILE: optimized.dfy ===
/**
 * `optimizedModuleId` of server.js: a build bundle whose basename ends in
 * '-', 32 lowercase hexadecimal digits, an optional ".min" and ".js" is an
 * optimized module, and its id is that basename without ".js".
 */
module Optimized {
  import opened Wrappers
  import opened Paths

  const HashLength: nat := 32

  /** A character of the class `[a-f0-9]`. */
  predicate IsLowerHex(c: char) {
    '0' <= c <= '9' || 'a' <= c <= 'f'
  }

  predicate AllLowerHex(s: string) {
    forall i :: 0 <= i < |s| ==> IsLowerHex(s[i])
  }

  /** `s` ends with '-' and 32 lowercase hexadecimal digits. */
  predicate EndsWithHash(s: string) {
    |s| >= HashLength + 1
    && s[|s| - HashLength - 1] == '-'
    && AllLowerHex(s[|s| - HashLength..])
  }

  /** The exact text `-[a-f0-9]{32}(?:\.min)?\.js` matches. */
  predicate IsHashedTail(t: string) {
    (|t| == 36 || |t| == 40)
    && t[0] == '-'
    && AllLowerHex(t[1..33])
    && (t[33..] == ".js" || t[33..] == ".min.js")
  }

  /**
   * The test `/.*-[a-f0-9]{32}(?:\.min)?\.js$/` on a basename: the leading
   * `.*` lets the match start anywhere, and `$` pins it to the end.
   */
  ghost predicate MatchesOptimizedPattern(name: string) {
    exists k :: 0 <= k <= |name| && IsHashedTail(name[k..])
  }

  /** A basename without ".js" that ends with the hash, with or without ".min" after it. */
  predicate IsHashedStem(stem: string) {
    EndsWithHash(stem) || (EndsWith(stem, ".min") && EndsWithHash(stem[..|stem| - 4]))
  }

  /** `optimizedModuleId(filename)`: the basename without ".js" when it names an optimized bundle. */
  function OptimizedModuleId(filename: string): (id: Option<string>)
    ensures id.Some? ==> id.value + ".js" == Basename(filename)
    ensures id.Some? ==> |id.value| >= HashLength + 1
  {
    var name := Basename(filename);
    if !EndsWith(name, ".js") then None
    else
      var stem := name[..|name| - 3];
      if IsHashedStem(stem) then
        assert stem + ".js" == name;
        Some(stem)
      else None
  }

  /** The id is defined exactly when the basename matches the source's regular expression. */
  lemma OptimizedModuleIdMatchesPattern(filename: string)
    ensures OptimizedModuleId(filename).Some? <==> MatchesOptimizedPattern(Basename(filename))
  {
    var name := Basename(filename);
    if OptimizedModuleId(filename).Some? {
      var stem := name[..|name| - 3];
      if EndsWithHash(stem) {
        PlainIdMatches(name);
      } else {
        MinIdMatches(name);
      }
    }
    if MatchesOptimizedPattern(name) {
      var k :| 0 <= k <= |name| && IsHashedTail(name[k..]);
      MatchDefinesId(name, k);
    }
  }

  lemma PlainIdMatches(name: string)
    requires EndsWith(name, ".js") && EndsWithHash(name[..|name| - 3])
    ensures IsHashedTail(name[|name| - 36..])
  {
    var stem := name[..|name| - 3];
    var t := name[|name| - 36..];
    assert t[0] == stem[|stem| - 33];
    assert t[1..33] == stem[|stem| - 32..];
    assert t[33..] == name[|name| - 3..];
  }

  lemma MinIdMatches(name: string)
    requires EndsWith(name, ".js")
    requires var stem := name[..|name| - 3];
             EndsWith(stem, ".min") && EndsWithHash(stem[..|stem| - 4])
    ensures IsHashedTail(name[|name| - 40..])
  {
    var stem := name[..|name| - 3];
    var t := name[|name| - 40..];
    var core := stem[..|stem| - 4];
    assert t[0] == core[|core| - 33];
    assert t[1..33] == core[|core| - 32..];
    assert t[33..37] == stem[|stem| - 4..];
    assert t[37..] == name[|name| - 3..];
    assert t[33..] == t[33..37] + t[37..];
  }

  lemma MatchDefinesId(name: string, k: int)
    requires 0 <= k <= |name| && IsHashedTail(name[k..])
    ensures EndsWith(name, ".js")
    ensures IsHashedStem(name[..|name| - 3])
  {
    var t := name[k..];
    assert name[|name| - 3..] == t[|t| - 3..];
    var stem := name[..|name| - 3];
    if |t| == 36 {
      assert stem[|stem| - 33] == t[0];
      assert stem[|stem| - 32..] == t[1..33];
    } else {
      assert t[33..37] == ".min";
      assert stem[|stem| - 4..] == t[33..37];
      var core := stem[..|stem| - 4];
      assert core[|core| - 33] == t[0];
      assert core[|core| - 32..] == t[1..33];
    }
  }

  /** A name without a separator is its own basename. */
  lemma BasenameOfPlainName(name: string)
    requires '/' !in name
    ensures Basename(name) == name
  {
    SplitNoSep(name);
  }

  /**
   * With hexadecimal digits only after the '-', the id is defined exactly
   * when there are 32 of them: 31 or 33 digits give nothing.
   */
  lemma HashNeedsExactly32Digits(prefix: string, hash: string, min: string)
    requires min == "" || min == ".min"
    requires '/' !in prefix && AllLowerHex(hash)
    ensures var name := prefix + "-" + hash + min + ".js";
            OptimizedModuleId(name).Some? <==> |hash| == HashLength
  {
    var core := prefix + "-" + hash;
    var stem := core + min;
    var name := stem + ".js";
    assert '/' !in name by {
      assert '/' !in hash by {
        forall i | 0 <= i < |hash| ensures hash[i] != '/' { assert IsLowerHex(hash[i]); }
      }
    }
    BasenameOfPlainName(name);
    IdOfStem(stem);
    assert core[|core| - 1] == '-' || IsLowerHex(core[|core| - 1]) by {
      if hash != [] {
        assert core[|core| - 1] == hash[|hash| - 1];
      }
    }
    HashedStemOfCore(core, min);
    if |hash| != HashLength {
      NoHashAtEnd(prefix, hash);
    } else {
      assert core[|core| - 33] == '-';
      assert core[|core| - 32..] == hash;
    }
  }

  /** A name that is its own basename has an id exactly when its stem is hashed. */
  lemma IdOfStem(stem: string)
    requires Basename(stem + ".js") == stem + ".js"
    ensures OptimizedModuleId(stem + ".js").Some? <==> IsHashedStem(stem)
  {
    var name := stem + ".js";
    assert EndsWith(name, ".js") && name[..|name| - 3] == stem;
  }

  /** Appending ".min" or nothing to text that ends in '-' or a digit keeps whether it ends with a hash. */
  lemma HashedStemOfCore(core: string, min: string)
    requires min == "" || min == ".min"
    requires core != "" && (core[|core| - 1] == '-' || IsLowerHex(core[|core| - 1]))
    ensures IsHashedStem(core + min) <==> EndsWithHash(core)
  {
    var stem := core + min;
    if min == ".min" {
      assert stem[..|stem| - 4] == core;
      assert stem[|stem| - 4..] == ".min";
      assert !IsLowerHex(stem[|stem| - 1]);
    } else {
      assert stem == core;
      assert stem[|stem| - 1] != 'n';
    }
  }

  /** A '-' followed by other than 32 hexadecimal digits does not end with a hash. */
  lemma NoHashAtEnd(prefix: string, hash: string)
    requires AllLowerHex(hash) && |hash| != HashLength
    ensures !EndsWithHash(prefix + "-" + hash)
  {
    var core := prefix + "-" + hash;
    if |core| >= HashLength + 1 {
      if |hash| > HashLength {
        assert core[|core| - HashLength - 1] == hash[|hash| - HashLength - 1];
        assert IsLowerHex(hash[|hash| - HashLength - 1]);
      } else {
        var j := |core| - |hash| - 1;
        assert core[j] == '-';
        assert !IsLowerHex(core[|core| - HashLength..][j - (|core| - HashLength)]);
      }
    }
  }

  /** With exactly 32 characters after the '-', the id is defined exactly when all are lowercase hexadecimal digits. */
  lemma HashNeedsLowerHex(prefix: string, hash: string, min: string)
    requires min == "" || min == ".min"
    requires '/' !in prefix && '/' !in hash && |hash| == HashLength
    ensures var name := prefix + "-" + hash + min + ".js";
            OptimizedModuleId(name).Some? <==> AllLowerHex(hash)
  {
    var name := prefix + "-" + hash + min + ".js";
    var stem := prefix + "-" + hash + min;
    assert OptimizedModuleId(name).Some?
       <==> EndsWithHash(stem) || (EndsWith(stem, ".min") && EndsWithHash(stem[..|stem| - 4])) by {
      BasenameOfPlainName(name);
      assert name[..|name| - 3] == stem;
    }
    var core := prefix + "-" + hash;
    assert EndsWithHash(core) <==> AllLowerHex(hash) by {
      assert core[|core| - 32..] == hash;
      assert core[|core| - 33] == '-';
    }
    if min == ".min" {
      assert stem == core + ".min";
      MinStemIsHashed(core);
    } else {
      assert stem == core;
      PlainStemIsHashed(prefix, hash);
    }
  }

  /** A stem ending in ".min" is accepted exactly when what precedes ".min" ends with a hash. */
  lemma MinStemIsHashed(core: string)
    ensures var stem := core + ".min";
            EndsWithHash(stem) || (EndsWith(stem, ".min") && EndsWithHash(stem[..|stem| - 4]))
            <==> EndsWithHash(core)
  {
    var stem := core + ".min";
    assert stem[..|stem| - 4] == core;
    assert stem[|stem| - 4..] == ".min";
    assert !IsLowerHex(stem[|stem| - 1]);
    assert !EndsWithHash(stem) by {
      if |stem| >= HashLength + 1 {
        assert stem[|stem| - HashLength..][HashLength - 1] == stem[|stem| - 1];
      }
    }
  }

  /** A stem that is '-' and 32 characters is accepted exactly when it ends with a hash. */
  lemma PlainStemIsHashed(prefix: string, hash: string)
    requires |hash| == HashLength
    ensures var stem := prefix + "-" + hash;
            EndsWithHash(stem) || (EndsWith(stem, ".min") && EndsWithHash(stem[..|stem| - 4]))
            <==> EndsWithHash(stem)
  {
    var stem := prefix + "-" + hash;
    if EndsWith(stem, ".min") && |stem| - 4 >= HashLength + 1 {
      var inner := stem[..|stem| - 4];
      assert inner[|prefix|] == '-';
      assert inner[|inner| - 32..][3] == inner[|prefix|];
      assert !IsLowerHex(inner[|inner| - 32..][3]);
    }
  }
}

=== FILE: paths.dfy ===
/**
 * A forward-slash model of the parts of Node's `path` module the server
 * uses: `join`, `normalize`, `basename`, `dirname` and `extname`.
 *
 * A path is split into pieces at every '/'; the pieces that name something
 * (neither empty nor ".") are its segments. Normalizing a path keeps only
 * three facts about it: whether it is absolute, its segments, and whether
 * it ends in a separator. Unlike Node, ".." segments are kept as ordinary
 * segments, and '\' is never a separator.
 */
module Paths {
  import opened Wrappers

  // ---------------------------------------------------------------------
  // Pieces and segments
  // ---------------------------------------------------------------------

  /** The pieces of `p` between '/' characters: "a//b/" has the pieces "a", "", "b" and "". */
  function Split(p: string): (r: seq<string>)
    ensures |r| >= 1
    ensures forall i :: 0 <= i < |r| ==> '/' !in r[i]
    decreases |p|
  {
    if p == [] then [""]
    else
      var rest := Split(p[1..]);
      if p[0] == '/' then [""] + rest
      else [[p[0]] + rest[0]] + rest[1..]
  }

  /** Puts pieces back together with one '/' between neighbours. */
  function Unsplit(pieces: seq<string>): string
  {
    if |pieces| == 0 then ""
    else if |pieces| == 1 then pieces[0]
    else pieces[0] + "/" + Unsplit(pieces[1..])
  }

  /** The last piece of `p`: what follows its last '/'. */
  function LastPiece(p: string): string
  {
    var pieces := Split(p);
    pieces[|pieces| - 1]
  }

  /** A piece that names a directory entry: neither empty nor ".". */
  predicate IsSegment(piece: string) {
    piece != "" && piece != "."
  }

  /** Segments are non-empty, never ".", and hold no separator. */
  predicate WellFormed(segs: seq<string>) {
    forall i :: 0 <= i < |segs| ==> IsSegment(segs[i]) && '/' !in segs[i]
  }

  /** The pieces that are segments, in order. */
  function Keep(pieces: seq<string>): (r: seq<string>)
    ensures forall x :: x in r ==> x in pieces && IsSegment(x)
  {
    if pieces == [] then []
    else (if IsSegment(pieces[0]) then [pieces[0]] else []) + Keep(pieces[1..])
  }

  /** The segments of `p`, in order. */
  function Segments(p: string): (r: seq<string>)
    ensures WellFormed(r)
  {
    Keep(Split(p))
  }

  // ---------------------------------------------------------------------
  // Normalization and joining
  // ---------------------------------------------------------------------

  predicate IsAbsolute(p: string) {
    |p| > 0 && p[0] == '/'
  }

  predicate HasTrailingSep(p: string) {
    |p| > 0 && p[|p| - 1] == '/'
  }

  /**
   * The canonical text of a path with the given shape: "." stands for the
   * empty relative path and "/" for the root; a trailing separator is kept.
   */
  function Render(absolute: bool, segs: seq<string>, trailing: bool): string
  {
    Decorate(absolute, Unsplit(segs), trailing)
  }

  /** The separators and "." that `Render` puts around the text of the segments. */
  function Decorate(absolute: bool, body: string, trailing: bool): string
  {
    var body1 := if body == "" && !absolute then "." else body;
    var body2 := if body1 != "" && trailing then body1 + "/" else body1;
    if absolute then "/" + body2 else body2
  }

  /** Node's `path.normalize` without ".." resolution. */
  function Normalize(p: string): (r: string)
    ensures r != ""
    ensures IsAbsolute(r) == IsAbsolute(p)
    ensures Segments(r) == Segments(p)
  {
    var segs := Segments(p);
    RenderShape(IsAbsolute(p), segs, HasTrailingSep(p));
    Render(IsAbsolute(p), segs, HasTrailingSep(p))
  }

  /** The non-empty members of `parts`, in order. */
  function NonEmpty(parts: seq<string>): (r: seq<string>)
    ensures forall i :: 0 <= i < |r| ==> r[i] != ""
  {
    if parts == [] then []
    else (if parts[0] != "" then [parts[0]] else []) + NonEmpty(parts[1..])
  }

  /** All segments of all parts, in order. */
  function SegmentsOfAll(parts: seq<string>): seq<string>
  {
    if parts == [] then [] else Segments(parts[0]) + SegmentsOfAll(parts[1..])
  }

  /**
   * Node's `path.join`: the non-empty parts joined by '/' and normalized,
   * or "." when every part is empty.
   */
  function Join(parts: seq<string>): (r: string)
    ensures r != ""
    ensures Segments(r) == SegmentsOfAll(parts)
  {
    var joined := NonEmpty(parts);
    SegmentsOfNonEmpty(parts);
    if joined == [] then "."
    else
      SegmentsOfUnsplit(joined);
      Normalize(Unsplit(joined))
  }

  /**
   * The ends of a join: "." when every part is empty; otherwise absolute
   * exactly when the first non-empty part is, and ending in a separator
   * when the last non-empty part does.
   */
  lemma JoinEnds(parts: seq<string>)
    ensures NonEmpty(parts) == [] ==> Join(parts) == "."
    ensures NonEmpty(parts) != [] ==> IsAbsolute(Join(parts)) == IsAbsolute(NonEmpty(parts)[0])
    ensures NonEmpty(parts) != [] && HasTrailingSep(Last(NonEmpty(parts))) ==> HasTrailingSep(Join(parts))
  {
    var ps := NonEmpty(parts);
    if ps != [] {
      var u := Unsplit(ps);
      assert Join(parts) == Normalize(u);
      UnsplitTextEnds(ps);
      NormalizeKeepsTrailing(u);
    }
  }

  /** The last element of a non-empty sequence. */
  function Last<T>(s: seq<T>): T
    requires s != []
  {
    s[|s| - 1]
  }

  /** The text of non-empty pieces is absolute, or ends in a separator, as its first and last pieces do. */
  lemma UnsplitTextEnds(ps: seq<string>)
    requires ps != [] && forall i :: 0 <= i < |ps| ==> ps[i] != ""
    ensures IsAbsolute(Unsplit(ps)) == IsAbsolute(ps[0])
    ensures HasTrailingSep(Last(ps)) ==> HasTrailingSep(Unsplit(ps))
  {
    UnsplitEnds(ps);
  }

  /** Normalizing keeps a trailing separator. */
  lemma NormalizeKeepsTrailing(p: string)
    ensures HasTrailingSep(p) ==> HasTrailingSep(Normalize(p))
  {
    RenderShape(IsAbsolute(p), Segments(p), HasTrailingSep(p));
  }

  // ---------------------------------------------------------------------
  // basename, dirname, extname
  // ---------------------------------------------------------------------

  /** `p` without its trailing separators. */
  function TrimTrailingSeps(p: string): (r: string)
    ensures !HasTrailingSep(r)
    ensures |r| <= |p| && r == p[..|r|]
    ensures forall i :: |r| <= i < |p| ==> p[i] == '/'
    decreases |p|
  {
    if HasTrailingSep(p) then TrimTrailingSeps(p[..|p| - 1]) else p
  }

  /**
   * Node's posix `path.basename`: the last piece once trailing separators are
   * dropped. `BasenameOfNormalize` and `JoinLastPiece` say which piece that is.
   */
  function Basename(p: string): (r: string)
    ensures '/' !in r
  {
    LastPiece(TrimTrailingSeps(p))
  }

  /**
   * Node's posix `dirname` loop, scanning down from index `i` to 1: the
   * first '/' met after a non-separator character, or -1.
   */
  function DirEnd(p: string, i: int, matchedSlash: bool): (e: int)
    requires i < |p|
    ensures e == -1 || (1 <= e <= i && p[e] == '/')
    decreases i
  {
    if i < 1 then -1
    else if p[i] == '/' then (if !matchedSlash then i else DirEnd(p, i - 1, matchedSlash))
    else DirEnd(p, i - 1, false)
  }

  /** Node's posix `path.dirname`. */
  function Dirname(p: string): (r: string)
    ensures r in {".", "/", "//"} || (0 < |r| < |p| && r == p[..|r|] && p[|r|] == '/')
  {
    if p == "" then "."
    else
      var hasRoot := p[0] == '/';
      var end := DirEnd(p, |p| - 1, true);
      if end == -1 then (if hasRoot then "/" else ".")
      else if hasRoot && end == 1 then "//"
      else p[..end]
  }

  /** Index of the last '.' in `s`, or -1. */
  function LastDot(s: string): (k: int)
    ensures -1 <= k < |s|
    ensures k >= 0 ==> s[k] == '.'
    ensures forall j :: k < j < |s| ==> s[j] != '.'
    decreases |s|
  {
    if s == [] then -1
    else if s[|s| - 1] == '.' then |s| - 1
    else LastDot(s[..|s| - 1])
  }

  /**
   * Node's posix `path.extname`: the basename from its last '.', or "" when
   * there is no dot, the dot starts the basename, or the basename is "..".
   * `ExtnameOfDotted` gives its value for a name `stem.ext`.
   */
  function Extname(p: string): (r: string)
    ensures r == "" || (r[0] == '.' && EndsWith(Basename(p), r) && '.' !in r[1..])
  {
    var b := Basename(p);
    var d := LastDot(b);
    if d <= 0 || b == ".." then ""
    else
      assert '.' !in b[d..][1..] by {
        forall k | 0 <= k < |b[d..][1..]| ensures b[d..][1..][k] != '.' {
          assert b[d..][1..][k] == b[d + 1 + k];
        }
      }
      b[d..]
  }

  // ---------------------------------------------------------------------
  // Leading separators
  // ---------------------------------------------------------------------

  /** Either separator the server's regular expressions accept. */
  predicate IsSeparator(c: char) {
    c == '/' || c == '\\'
  }

  /** `s.replace(/^[\/\\]/, '')`: drops one leading '/' or '\'. */
  function StripLeadingSeparator(s: string): (r: string)
    ensures |s| > 0 && IsSeparator(s[0]) ==> s == [s[0]] + r
    ensures !(|s| > 0 && IsSeparator(s[0])) ==> r == s
  {
    if |s| > 0 && IsSeparator(s[0]) then s[1..] else s
  }

  /** `s.replace(/^\//, '')`: drops one leading '/'. */
  function StripLeadingSlash(s: string): (r: string)
    ensures IsAbsolute(s) ==> s == "/" + r
    ensures !IsAbsolute(s) ==> r == s
  {
    if IsAbsolute(s) then s[1..] else s
  }

  // ---------------------------------------------------------------------
  // Lemmas: pieces
  // ---------------------------------------------------------------------

  /** A string without separators is a single piece. */
  lemma {:induction false} SplitNoSep(s: string)
    requires '/' !in s
    ensures Split(s) == [s]
    decreases |s|
  {
    if s != [] {
      assert '/' !in s[1..] by {
        forall c | c in s[1..] ensures c != '/' { assert c in s; }
      }
      SplitNoSep(s[1..]);
      assert [s[0]] + s[1..] == s;
    }
  }

  /** One step of splitting: the first character either ends a piece or starts the first one. */
  lemma SplitCons(c: char, t: string)
    ensures c == '/' ==> Split([c] + t) == [""] + Split(t)
    ensures c != '/' ==> Split([c] + t) == [[c] + Split(t)[0]] + Split(t)[1..]
  {
    assert ([c] + t)[1..] == t;
  }

  /** Splitting distributes over a '/' between two strings. */
  lemma {:induction false} SplitConcat(a: string, b: string)
    ensures Split(a + "/" + b) == Split(a) + Split(b)
    decreases |a|
  {
    if a == [] {
      assert a + "/" + b == ['/'] + b;
      SplitCons('/', b);
      assert Split(a) == [""];
    } else {
      SplitConcat(a[1..], b);
      SplitConcatStep(a[0], a[1..], b);
      assert [a[0]] + a[1..] == a;
    }
  }

  /** The step of `SplitConcat`: one more character in front of `a`. */
  lemma SplitConcatStep(c: char, a: string, b: string)
    requires Split(a + "/" + b) == Split(a) + Split(b)
    ensures Split([c] + a + "/" + b) == Split([c] + a) + Split(b)
  {
    assert [c] + a + "/" + b == [c] + (a + "/" + b);
    if c == '/' {
      SplitConcatSlash(a, b);
    } else {
      SplitConcatChar(c, a, b);
    }
  }

  lemma SplitConcatSlash(a: string, b: string)
    requires Split(a + "/" + b) == Split(a) + Split(b)
    ensures Split(['/'] + (a + "/" + b)) == Split(['/'] + a) + Split(b)
  {
    SplitCons('/', a + "/" + b);
    SplitCons('/', a);
    ConsConcat("", Split(a), Split(b));
  }

  lemma SplitConcatChar(c: char, a: string, b: string)
    requires c != '/'
    requires Split(a + "/" + b) == Split(a) + Split(b)
    ensures Split([c] + (a + "/" + b)) == Split([c] + a) + Split(b)
  {
    var ra, rb := Split(a), Split(b);
    SplitCons(c, a + "/" + b);
    SplitCons(c, a);
    ReplaceHeadConcat(ra, rb, [c] + ra[0]);
  }

  /** Concatenation regroups freely. */
  lemma ConcatAssociates<T>(a: seq<T>, b: seq<T>, c: seq<T>)
    ensures a + (b + c) == (a + b) + c
  {
  }

  /** A sequence is its prefix up to `k` followed by the rest. */
  lemma SplitAtIndex<T>(s: seq<T>, k: nat)
    requires k <= |s|
    ensures s == s[..k] + s[k..]
  {
  }

  lemma ConsConcat<T>(h: T, x: seq<T>, y: seq<T>)
    ensures [h] + (x + y) == ([h] + x) + y
  {
  }

  /** Replacing the head of `x + y` replaces the head of `x`. */
  lemma ReplaceHeadConcat<T>(x: seq<T>, y: seq<T>, h: T)
    requires |x| >= 1
    ensures (x + y)[0] == x[0]
    ensures [h] + (x + y)[1..] == ([h] + x[1..]) + y
  {
    assert (x + y)[1..] == x[1..] + y;
  }

  /** A character missing from `p` is missing from each of its pieces. */
  lemma {:induction false} SplitOmits(p: string, c: char)
    requires c !in p
    ensures forall i :: 0 <= i < |Split(p)| ==> c !in Split(p)[i]
    decreases |p|
  {
    if p != [] {
      assert c !in p[1..] by {
        forall k | 0 <= k < |p[1..]| ensures p[1..][k] != c { assert p[1..][k] == p[k + 1]; }
      }
      SplitOmits(p[1..], c);
    }
  }

  /** Appending text without a separator extends only the last piece. */
  lemma {:induction false} SplitAppend(p: string, t: string)
    requires '/' !in t
    ensures LastPiece(p + t) == LastPiece(p) + t
    ensures |Split(p + t)| == |Split(p)|
    decreases |p|
  {
    if p == [] {
      assert p + t == t;
      SplitNoSep(t);
    } else {
      SplitAppend(p[1..], t);
      assert p + t == [p[0]] + (p[1..] + t) && p == [p[0]] + p[1..];
      SplitAppendStep(p[0], p[1..], t);
    }
  }

  /** The step of `SplitAppend`: one more character in front of `p`. */
  lemma SplitAppendStep(c: char, p: string, t: string)
    requires LastPiece(p + t) == LastPiece(p) + t
    requires |Split(p + t)| == |Split(p)|
    ensures LastPiece([c] + (p + t)) == LastPiece([c] + p) + t
    ensures |Split([c] + (p + t))| == |Split([c] + p)|
  {
    SplitCons(c, p + t);
    SplitCons(c, p);
  }

  /** Joining the pieces of `p` gives back `p`. */
  lemma {:induction false} UnsplitSplit(p: string)
    ensures Unsplit(Split(p)) == p
    decreases |p|
  {
    if p != [] {
      UnsplitSplit(p[1..]);
      var rest := Split(p[1..]);
      if p[0] == '/' {
        assert Split(p) == [""] + rest;
        assert ([""] + rest)[1..] == rest;
        assert p == "/" + p[1..];
      } else {
        var r := Split(p);
        assert r == [[p[0]] + rest[0]] + rest[1..];
        if |rest| == 1 {
          assert p == [p[0]] + p[1..];
        } else {
          assert r[1..] == rest[1..];
          assert Unsplit(rest) == rest[0] + "/" + Unsplit(rest[1..]);
          assert p == [p[0]] + p[1..];
        }
      }
    }
  }

  /** Splitting the join of separator-free pieces gives the pieces back. */
  lemma {:induction false} SplitUnsplit(pieces: seq<string>)
    requires |pieces| >= 1
    requires forall i :: 0 <= i < |pieces| ==> '/' !in pieces[i]
    ensures Split(Unsplit(pieces)) == pieces
    decreases |pieces|
  {
    SplitNoSep(pieces[0]);
    if |pieces| > 1 {
      SplitUnsplit(pieces[1..]);
      SplitConcat(pieces[0], Unsplit(pieces[1..]));
      assert [pieces[0]] + pieces[1..] == pieces;
    }
  }

  lemma {:induction false} KeepConcat(a: seq<string>, b: seq<string>)
    ensures Keep(a + b) == Keep(a) + Keep(b)
    decreases |a|
  {
    if a == [] {
      assert a + b == b;
    } else {
      assert (a + b)[0] == a[0];
      assert (a + b)[1..] == a[1..] + b;
      KeepConcat(a[1..], b);
    }
  }

  lemma KeepWellFormed(segs: seq<string>)
    requires WellFormed(segs)
    ensures Keep(segs) == segs
    decreases |segs|
  {
    if segs != [] {
      KeepWellFormed(segs[1..]);
      assert [segs[0]] + segs[1..] == segs;
    }
  }

  /** The segments of `a + "/" + b` are those of `a` followed by those of `b`. */
  lemma SegmentsConcat(a: string, b: string)
    ensures Segments(a + "/" + b) == Segments(a) + Segments(b)
  {
    SplitConcat(a, b);
    KeepConcat(Split(a), Split(b));
  }

  /** Well-formed segments survive a round trip through their text. */
  lemma SegmentsOfUnsplitWellFormed(segs: seq<string>)
    requires WellFormed(segs)
    ensures Segments(Unsplit(segs)) == segs
  {
    if segs == [] {
      assert Split("") == [""];
    } else {
      SplitUnsplit(segs);
      KeepWellFormed(segs);
    }
  }

  lemma {:induction false} SegmentsOfUnsplit(parts: seq<string>)
    ensures Segments(Unsplit(parts)) == SegmentsOfAll(parts)
    decreases |parts|
  {
    if |parts| == 0 {
      assert Split("") == [""];
    } else if |parts| == 1 {
      assert SegmentsOfAll(parts[1..]) == [];
    } else {
      SegmentsOfUnsplit(parts[1..]);
      SegmentsConcat(parts[0], Unsplit(parts[1..]));
    }
  }

  lemma {:induction false} SegmentsOfNonEmpty(parts: seq<string>)
    ensures SegmentsOfAll(NonEmpty(parts)) == SegmentsOfAll(parts)
    decreases |parts|
  {
    if parts != [] {
      SegmentsOfNonEmpty(parts[1..]);
      var head := if parts[0] != "" then [parts[0]] else [];
      SegmentsOfAllConcat(head, NonEmpty(parts[1..]));
      if parts[0] == "" {
        assert Split("") == [""];
      } else {
        assert SegmentsOfAll([parts[0]]) == Segments(parts[0]) by {
          assert [parts[0]][1..] == [];
        }
      }
    }
  }

  lemma {:induction false} SegmentsOfAllConcat(a: seq<string>, b: seq<string>)
    ensures SegmentsOfAll(a + b) == SegmentsOfAll(a) + SegmentsOfAll(b)
    decreases |a|
  {
    if a == [] {
      assert a + b == b;
    } else {
      assert (a + b)[0] == a[0];
      assert (a + b)[1..] == a[1..] + b;
      SegmentsOfAllConcat(a[1..], b);
    }
  }

  // ---------------------------------------------------------------------
  // Lemmas: the text of a rendered path
  // ---------------------------------------------------------------------

  lemma {:induction false} UnsplitEnds(segs: seq<string>)
    requires |segs| > 0
    requires forall i :: 0 <= i < |segs| ==> segs[i] != ""
    ensures |Unsplit(segs)| > 0
    ensures Unsplit(segs)[0] == segs[0][0]
    ensures Unsplit(segs)[|Unsplit(segs)| - 1] == segs[|segs| - 1][|segs[|segs| - 1]| - 1]
    decreases |segs|
  {
    if |segs| > 1 {
      UnsplitEnds(segs[1..]);
    }
  }

  lemma SegmentsOfSlashPrefix(t: string)
    ensures Segments("/" + t) == Segments(t)
  {
    SegmentsConcat("", t);
    assert "" + "/" + t == "/" + t;
    assert Split("") == [""];
  }

  lemma SegmentsOfSlashSuffix(t: string)
    ensures Segments(t + "/") == Segments(t)
  {
    SegmentsConcat(t, "");
    assert t + "/" + "" == t + "/";
    assert Split("") == [""];
  }

  /** A plain name is its own single segment. */
  lemma SegmentsOfName(name: string)
    requires IsSegment(name) && '/' !in name
    ensures Segments(name) == [name]
  {
    SplitNoSep(name);
    assert Keep([name]) == [name] + Keep([]);
  }

  lemma SegmentsOfDot()
    ensures Segments(".") == []
  {
    SplitNoSep(".");
  }

  /** The text of well-formed segments: empty for none, else neither starting nor ending with '/'. */
  lemma UnsplitShape(segs: seq<string>)
    requires WellFormed(segs)
    ensures Segments(Unsplit(segs)) == segs
    ensures segs == [] ==> Unsplit(segs) == ""
    ensures segs != [] ==> Unsplit(segs) != "" && !IsAbsolute(Unsplit(segs)) && !HasTrailingSep(Unsplit(segs))
  {
    SegmentsOfUnsplitWellFormed(segs);
    if segs != [] {
      UnsplitEnds(segs);
      assert segs[0][0] in segs[0];
      var last := segs[|segs| - 1];
      assert last[|last| - 1] in last;
    }
  }

  /** Rendering a shape and reading the shape back off the text agree. */
  lemma RenderShape(absolute: bool, segs: seq<string>, trailing: bool)
    requires WellFormed(segs)
    ensures Segments(Render(absolute, segs, trailing)) == segs
    ensures IsAbsolute(Render(absolute, segs, trailing)) == absolute
    ensures HasTrailingSep(Render(absolute, segs, trailing))
         == ((trailing && (segs != [] || !absolute)) || (absolute && segs == []))
  {
    UnsplitShape(segs);
    DecorateShape(absolute, Unsplit(segs), segs, trailing);
  }

  /** Decorating the text of well-formed segments keeps the segments and sets the two ends as asked. */
  lemma DecorateShape(absolute: bool, body: string, segs: seq<string>, trailing: bool)
    requires Segments(body) == segs
    requires segs == [] ==> body == ""
    requires segs != [] ==> body != "" && !IsAbsolute(body) && !HasTrailingSep(body)
    ensures Segments(Decorate(absolute, body, trailing)) == segs
    ensures IsAbsolute(Decorate(absolute, body, trailing)) == absolute
    ensures HasTrailingSep(Decorate(absolute, body, trailing))
         == ((trailing && (segs != [] || !absolute)) || (absolute && segs == []))
  {
    var body1 := if body == "" && !absolute then "." else body;
    var body2 := if body1 != "" && trailing then body1 + "/" else body1;
    assert Segments(body1) == segs && !IsAbsolute(body1) by {
      SegmentsOfDot();
    }
    assert body1 != "" ==> !HasTrailingSep(body1);
    assert Segments(body2) == segs && !IsAbsolute(body2) by {
      SegmentsOfSlashSuffix(body1);
    }
    assert HasTrailingSep(body2) == (body1 != "" && trailing);
    SegmentsOfSlashPrefix(body2);
  }

  // ---------------------------------------------------------------------
  // Lemmas: what normalization and joining promise
  // ---------------------------------------------------------------------

  /** Normalizing twice is normalizing once. */
  lemma NormalizeIdempotent(p: string)
    ensures Normalize(Normalize(p)) == Normalize(p)
  {
    RenderShape(IsAbsolute(p), Segments(p), HasTrailingSep(p));
  }

  /** Two paths of the same shape normalize to the same text. */
  lemma NormalizeByShape(p: string, q: string)
    requires IsAbsolute(p) == IsAbsolute(q)
    requires Segments(p) == Segments(q)
    requires HasTrailingSep(p) == HasTrailingSep(q)
    ensures Normalize(p) == Normalize(q)
  {
  }

  /** The segments of two parts. */
  lemma SegmentsOfTwo(a: string, b: string)
    ensures SegmentsOfAll([a, b]) == Segments(a) + Segments(b)
  {
    assert [a, b][1..] == [b];
    assert [b][1..] == [];
    assert SegmentsOfAll([b]) == Segments(b) + SegmentsOfAll([]);
    assert SegmentsOfAll([a, b]) == Segments(a) + SegmentsOfAll([b]);
  }

  /**
   * Two joins of two non-empty parts agree when the parts agree in shape:
   * whether the first is absolute, the segments of both together, and
   * whether the second ends in a separator.
   */
  lemma JoinTwoByShape(a: string, b: string, c: string, d: string)
    requires a != "" && b != "" && c != "" && d != ""
    requires IsAbsolute(a) == IsAbsolute(c)
    requires Segments(a) + Segments(b) == Segments(c) + Segments(d)
    requires HasTrailingSep(b) == HasTrailingSep(d)
    ensures Join([a, b]) == Join([c, d])
  {
    JoinTwo(a, b);
    JoinTwo(c, d);
    ConcatShape(a, b);
    ConcatShape(c, d);
    NormalizeByShape(a + "/" + b, c + "/" + d);
  }

  /** `a + "/" + b` starts as `a` does, ends as `b` does, and has the segments of both. */
  lemma ConcatShape(a: string, b: string)
    requires a != "" && b != ""
    ensures IsAbsolute(a + "/" + b) == IsAbsolute(a)
    ensures HasTrailingSep(a + "/" + b) == HasTrailingSep(b)
    ensures Segments(a + "/" + b) == Segments(a) + Segments(b)
  {
    SegmentsConcat(a, b);
    var p := a + "/" + b;
    assert p[0] == a[0];
    assert p[|p| - 1] == b[|b| - 1];
  }

  /** A two-part join is the normalized text of the parts with a '/' between. */
  lemma JoinTwo(a: string, b: string)
    ensures a != "" && b != "" ==> Join([a, b]) == Normalize(a + "/" + b)
    ensures a == "" && b != "" ==> Join([a, b]) == Normalize(b)
    ensures a != "" && b == "" ==> Join([a, b]) == Normalize(a)
  {
    assert [a, b][1..] == [b];
    assert [b][1..] == [];
    assert NonEmpty([b]) == (if b != "" then [b] else []);
    assert NonEmpty([a, b]) == (if a != "" then [a] else []) + NonEmpty([b]);
    if a != "" && b != "" {
      assert NonEmpty([a, b]) == [a, b];
      assert Unsplit([a, b]) == a + "/" + Unsplit([b]);
    } else if a == "" && b != "" {
      assert NonEmpty([a, b]) == [b];
    } else if a != "" && b == "" {
      assert NonEmpty([a, b]) == [a];
    }
  }

  /** A character other than '/' and '.' that no part contains is not in the joined path. */
  lemma NormalizeOmits(p: string, c: char)
    requires c != '/' && c != '.' && c !in p
    ensures c !in Normalize(p)
  {
    var segs := Segments(p);
    SplitOmits(p, c);
    forall i | 0 <= i < |segs| ensures c !in segs[i] {
      assert segs[i] in Split(p);
    }
    UnsplitOmits(segs, c);
  }

  lemma {:induction false} UnsplitOmits(pieces: seq<string>, c: char)
    requires c != '/'
    requires forall i :: 0 <= i < |pieces| ==> c !in pieces[i]
    ensures c !in Unsplit(pieces)
    decreases |pieces|
  {
    if |pieces| > 1 {
      UnsplitOmits(pieces[1..], c);
    }
  }

  lemma {:induction false} NonEmptyOmits(parts: seq<string>, c: char)
    requires forall i :: 0 <= i < |parts| ==> c !in parts[i]
    ensures forall i :: 0 <= i < |NonEmpty(parts)| ==> c !in NonEmpty(parts)[i]
    decreases |parts|
  {
    if parts != [] {
      NonEmptyOmits(parts[1..], c);
    }
  }

  /** Joining introduces no character other than '/' and '.'. */
  lemma JoinOmits(parts: seq<string>, c: char)
    requires c != '/' && c != '.'
    requires forall i :: 0 <= i < |parts| ==> c !in parts[i]
    ensures c !in Join(parts)
  {
    NonEmptyOmits(parts, c);
    var joined := NonEmpty(parts);
    if joined != [] {
      UnsplitOmits(joined, c);
      NormalizeOmits(Unsplit(joined), c);
    }
  }

  /** Every path ends with its last piece. */
  lemma EndsWithLastPiece(p: string)
    ensures EndsWith(p, LastPiece(p))
  {
    UnsplitSplit(p);
    UnsplitSuffix(Split(p));
  }

  /** A last piece that is a segment is the last segment. */
  lemma SegmentsEndWithLastPiece(p: string)
    requires IsSegment(LastPiece(p))
    ensures Segments(p) != [] && Segments(p)[|Segments(p)| - 1] == LastPiece(p)
  {
    var pieces := Split(p);
    var n := |pieces|;
    KeepConcat(pieces[..n - 1], [pieces[n - 1]]);
    assert pieces[..n - 1] + [pieces[n - 1]] == pieces;
    assert Keep([pieces[n - 1]]) == [pieces[n - 1]] by {
      assert [pieces[n - 1]][1..] == [];
    }
  }

  /** A path whose last piece is not empty does not end in a separator. */
  lemma LastPieceNotTrailing(p: string)
    requires LastPiece(p) != ""
    ensures !HasTrailingSep(p)
  {
    EndsWithLastPiece(p);
    var lp := LastPiece(p);
    assert p[|p| - 1] == lp[|lp| - 1];
    assert lp[|lp| - 1] in lp;
  }

  /** The last piece of the text of well-formed segments is the last segment. */
  lemma UnsplitSegmentsLast(segs: seq<string>)
    requires WellFormed(segs) && segs != []
    ensures LastPiece(Unsplit(segs)) == segs[|segs| - 1]
  {
    var t := Unsplit(segs);
    assert Split(t) == segs by {
      SplitUnsplit(segs);
    }
    LastPieceOfPieces(t, segs);
  }

  /** The last piece of `t` is the last of its pieces. */
  lemma LastPieceOfPieces(t: string, pieces: seq<string>)
    requires Split(t) == pieces
    ensures LastPiece(t) == pieces[|pieces| - 1]
  {
  }

  /** A leading '/' does not change the last piece. */
  lemma SlashPrefixLastPiece(t: string)
    ensures LastPiece("/" + t) == LastPiece(t)
  {
    SplitConcat("", t);
    assert "" + "/" + t == "/" + t;
  }

  /** When the last piece of `p` is a segment, normalizing keeps it last and adds no trailing separator. */
  lemma NormalizeLastPiece(p: string)
    requires IsSegment(LastPiece(p))
    ensures LastPiece(Normalize(p)) == LastPiece(p)
    ensures !HasTrailingSep(Normalize(p))
  {
    var segs := Segments(p);
    var body := Unsplit(segs);
    assert segs != [] && segs[|segs| - 1] == LastPiece(p) by {
      SegmentsEndWithLastPiece(p);
    }
    assert Normalize(p) == Render(IsAbsolute(p), segs, false) by {
      LastPieceNotTrailing(p);
    }
    assert body != "" by {
      UnsplitEnds(segs);
    }
    assert LastPiece(body) == LastPiece(p) by {
      UnsplitSegmentsLast(segs);
    }
    assert LastPiece("/" + body) == LastPiece(p) by {
      SlashPrefixLastPiece(body);
    }
    assert Normalize(p) == if IsAbsolute(p) then "/" + body else body;
    LastPieceNotTrailing(Normalize(p));
  }

  /** The basename of a normalized path is its last segment, or empty when an absolute path has none. */
  lemma BasenameOfNormalize(p: string)
    ensures Segments(p) != [] ==> Basename(Normalize(p)) == Segments(p)[|Segments(p)| - 1]
    ensures Segments(p) == [] && IsAbsolute(p) ==> Basename(Normalize(p)) == ""
  {
    var segs := Segments(p);
    var n := Normalize(p);
    if segs != [] {
      var body := Unsplit(segs);
      var m := if IsAbsolute(p) then "/" + body else body;
      assert body != "" && !HasTrailingSep(body) by {
        UnsplitShape(segs);
      }
      assert LastPiece(m) == segs[|segs| - 1] by {
        UnsplitSegmentsLast(segs);
        SlashPrefixLastPiece(body);
      }
      assert !HasTrailingSep(m);
      assert n == m || n == m + "/";
      assert TrimTrailingSeps(n) == m by {
        if n == m + "/" {
          assert n[..|n| - 1] == m;
        }
      }
    } else if IsAbsolute(p) {
      assert n == "/";
      assert TrimTrailingSeps(n) == "" by {
        assert n[..|n| - 1] == "";
      }
      assert Split("") == [""];
    }
  }

  /** An absolute normalized path with a segment does not begin with two separators. */
  lemma NormalizeSecondChar(p: string)
    requires IsAbsolute(p) && Segments(p) != []
    ensures |Normalize(p)| > 1 && Normalize(p)[1] != '/'
  {
    var segs := Segments(p);
    UnsplitEnds(segs);
    var body := Unsplit(segs);
    assert Normalize(p)[1..][0] == body[0];
  }

  /** An absolute join with a segment does not begin with two separators. */
  lemma JoinSecondChar(parts: seq<string>)
    requires SegmentsOfAll(parts) != []
    ensures IsAbsolute(Join(parts)) ==> |Join(parts)| > 1 && Join(parts)[1] != '/'
  {
    var joined := NonEmpty(parts);
    if joined != [] {
      SegmentsOfNonEmpty(parts);
      SegmentsOfUnsplit(joined);
      if IsAbsolute(Unsplit(joined)) {
        NormalizeSecondChar(Unsplit(joined));
      }
    }
  }

  /** The text of the pieces ends with the text of the last piece. */
  lemma {:induction false} UnsplitSuffix(pieces: seq<string>)
    requires |pieces| >= 1
    ensures EndsWith(Unsplit(pieces), pieces[|pieces| - 1])
    decreases |pieces|
  {
    if |pieces| > 1 {
      UnsplitSuffix(pieces[1..]);
      var t := Unsplit(pieces[1..]);
      var last := pieces[|pieces| - 1];
      assert Unsplit(pieces) == pieces[0] + "/" + t;
      assert (pieces[0] + "/" + t)[|pieces[0] + "/" + t| - |last|..] == t[|t| - |last|..];
    }
  }

  /** The basename of a path that does not end in a separator is its last piece. */
  lemma BasenameIsLastPiece(p: string)
    requires !HasTrailingSep(p)
    ensures Basename(p) == LastPiece(p)
  {
  }

  /** The last piece of a two-part join is the last piece of its second part, when that is a segment. */
  lemma LastPieceOfJoin(a: string, b: string)
    requires IsSegment(LastPiece(b))
    ensures Basename(Join([a, b])) == LastPiece(b)
    ensures !HasTrailingSep(Join([a, b]))
  {
    JoinLastPiece([a, b]);
  }

  /** The last piece of joined pieces is the last piece of the last one. */
  lemma {:induction false} UnsplitLastPiece(pieces: seq<string>)
    requires |pieces| >= 1
    ensures LastPiece(Unsplit(pieces)) == LastPiece(pieces[|pieces| - 1])
    decreases |pieces|
  {
    if |pieces| > 1 {
      UnsplitLastPiece(pieces[1..]);
      SplitConcat(pieces[0], Unsplit(pieces[1..]));
    }
  }

  lemma {:induction false} NonEmptyKeepsLast(parts: seq<string>)
    requires parts != [] && parts[|parts| - 1] != ""
    ensures NonEmpty(parts) != []
    ensures NonEmpty(parts)[|NonEmpty(parts)| - 1] == parts[|parts| - 1]
    decreases |parts|
  {
    if |parts| > 1 {
      NonEmptyKeepsLast(parts[1..]);
    }
  }

  /**
   * When the last part's last piece is a segment, the join ends with that
   * piece: it is the join's basename, and no separator follows it.
   */
  lemma JoinLastPiece(parts: seq<string>)
    requires parts != [] && IsSegment(LastPiece(parts[|parts| - 1]))
    ensures Basename(Join(parts)) == LastPiece(parts[|parts| - 1])
    ensures EndsWith(Join(parts), LastPiece(parts[|parts| - 1]))
    ensures !HasTrailingSep(Join(parts))
  {
    var last := parts[|parts| - 1];
    assert last != "" by {
      assert Split("") == [""];
    }
    NonEmptyKeepsLast(parts);
    var joined := NonEmpty(parts);
    UnsplitLastPiece(joined);
    NormalizeLastPiece(Unsplit(joined));
    EndsWithLastPiece(Join(parts));
  }

  /** Dropping a leading '/' leaves the last piece alone. */
  lemma LastPieceStripSlash(s: string)
    ensures LastPiece(StripLeadingSlash(s)) == LastPiece(s)
  {
    if IsAbsolute(s) {
      var t := s[1..];
      assert s == "" + "/" + t;
      SplitConcat("", t);
      assert Split("") == [""];
    }
  }

  // ---------------------------------------------------------------------
  // Lemmas: dirname
  // ---------------------------------------------------------------------

  lemma {:induction false} DirEndSkipsName(p: string, i: int, start: int)
    requires 0 <= start < i < |p|
    requires forall j :: start < j <= i ==> p[j] != '/'
    ensures DirEnd(p, i, true) == DirEnd(p, start, false)
    ensures DirEnd(p, i, false) == DirEnd(p, start, false)
    decreases i
  {
    if i - 1 > start {
      DirEndSkipsName(p, i - 1, start);
    }
  }

  /** The directory of `d + "/" + name` is `d`, for a plain name and a `d` without a trailing separator. */
  lemma DirnameOfChild(d: string, name: string)
    requires d != "" && !HasTrailingSep(d)
    requires name != "" && '/' !in name
    ensures Dirname(d + "/" + name) == d
  {
    var p := d + "/" + name;
    assert forall j :: |d| < j <= |p| - 1 ==> p[j] == name[j - |d| - 1];
    DirEndSkipsName(p, |p| - 1, |d|);
    assert p[..|d|] == d;
  }

  /** A basename with a non-empty stem, a dot and a dot-free extension has that extension. */
  lemma ExtnameOfDotted(p: string, stem: string, ext: string)
    requires Basename(p) == stem + "." + ext
    requires stem != "" && ext != "" && '.' !in ext
    ensures Extname(p) == "." + ext
  {
    var b := stem + "." + ext;
    assert b[|stem|] == '.';
    forall j | |stem| < j < |b| ensures b[j] != '.' {
      assert b[j] == ext[j - |stem| - 1];
    }
    assert LastDot(b) == |stem|;
    assert b[|stem|..] == "." + ext;
  }
}

=== FILE: responders.dfy ===
/**
 * The responses server.js writes: `serveError`, `serve404`, `serveFile` and
 * `serveIndex`. A response is the status, the header object handed to
 * `resp.writeHead` and the body handed to `resp.write`/`resp.end`. The
 * file read and the index template are inputs: what `fs.readFile` returned,
 * and the outcome of reading and compiling the template.
 */
module Responders {
  import opened Wrappers
  import opened Paths
  import opened Urls

  // ---------------------------------------------------------------------
  // Headers
  // ---------------------------------------------------------------------

  /** The `contentType` table, indexed by an extension without its dot. */
  function ContentType(key: string): (t: Option<string>)
    ensures t.Some? <==> key == "html" || key == "css" || key == "js"
    ensures t == Some("text/html") <==> key == "html"
    ensures t == Some("text/css") <==> key == "css"
    ensures t == Some("application/javascript") <==> key == "js"
  {
    if key == "html" then Some("text/html")
    else if key == "css" then Some("text/css")
    else if key == "js" then Some("application/javascript")
    else None
  }

  const PlainText: string := "text/plain"
  const CacheControl: string := "must-revalidate, no-cache"

  /**
   * The header object of a response. `None` stands for a header whose value
   * is `undefined` (Content-Type) or that is absent (Content-Length).
   */
  datatype Headers = Headers(contentType: Option<string>, cacheControl: string, contentLength: Option<nat>)

  /** `defaultHeaders`: plain text, never cached, no length. */
  const DefaultHeaders: Headers := Headers(Some(PlainText), CacheControl, None)

  /**
   * `_.extend({}, defaultHeaders, {'Content-Type': t, 'Content-Length': n})`:
   * both keys are copied even when `t` is `undefined`.
   */
  function WithBody(contentType: Option<string>, length: nat): (h: Headers)
    ensures h.cacheControl == DefaultHeaders.cacheControl
    ensures h.contentType == contentType && h.contentLength == Some(length)
  {
    DefaultHeaders.(contentType := contentType, contentLength := Some(length))
  }

  // ---------------------------------------------------------------------
  // Bodies
  // ---------------------------------------------------------------------

  /** The number of bytes UTF-8 spends on one character. */
  function Utf8Width(c: char): (w: nat)
    ensures 1 <= w <= 4
    ensures w == 1 <==> (c as int) < 0x80
  {
    var n := c as int;
    if n < 0x80 then 1 else if n < 0x800 then 2 else if n < 0x10000 then 3 else 4
  }

  /** `Buffer.byteLength(s)`: the length of the UTF-8 encoding of `s`. */
  function Utf8Length(s: string): (n: nat)
    ensures |s| <= n <= 4 * |s|
  {
    if s == [] then 0 else Utf8Width(s[0]) + Utf8Length(s[1..])
  }

  /** A body is the bytes read from a file, or text the server composed. */
  datatype Body = Bytes(data: seq<bv8>) | Text(text: string)

  /** The number of bytes a body puts on the wire. */
  function BodyLength(b: Body): nat {
    match b
    case Bytes(data) => |data|
    case Text(text) => Utf8Length(text)
  }

  datatype Response = Response(status: nat, headers: Headers, body: Body)

  // ---------------------------------------------------------------------
  // Errors
  // ---------------------------------------------------------------------

  /** `serveError`: status 500 and the error's text on a line of its own. */
  function ServeError(errorText: string): (r: Response)
    ensures r.status == 500 && r.headers == DefaultHeaders
    ensures r.body.Text? && |r.body.text| == |errorText| + 1
    ensures r.body.Text? ==> r.body.text[..|errorText|] == errorText && r.body.text[|errorText|] == '\n'
  {
    Response(500, DefaultHeaders, Text(errorText + "\n"))
  }

  const NotFoundText: string := "not found"

  /** `serve404`: status 404 and the text "not found". */
  function Serve404(): (r: Response)
    ensures r.status == 404 && r.headers == DefaultHeaders
    ensures r.body == Text("not found")
  {
    Response(404, DefaultHeaders, Text(NotFoundText))
  }

  /** What `fs.readFile` hands its callback: the data, or an error with an optional `code`. */
  datatype ReadOutcome = ReadOk(data: seq<bv8>) | ReadFailed(code: Option<string>, errorText: string)

  /** The status `serveFile` answers a failed read with. */
  function ErrorStatus(code: Option<string>): (status: nat)
    ensures status == 404 <==> code == Some("ENOENT")
    ensures status == 404 || status == 500
  {
    if code == Some("ENOENT") then 404 else 500
  }

  // ---------------------------------------------------------------------
  // serveFile
  // ---------------------------------------------------------------------

  /**
   * `path.extname(filename).slice(1)`: the key the content type is looked up
   * by. It is empty when Node gives no extension or just "."; otherwise it is
   * the dot-free text after the basename's last dot (`TypeKeyOfDotted`), and
   * a name that starts with its only dot has no key (`TypeKeyOfLeadingDot`).
   */
  function TypeKey(filename: string): (k: string)
    ensures '.' !in k
    ensures k != "" <==> Extname(filename) != "" && Extname(filename) != "."
    ensures k != "" ==> Extname(filename) == "." + k && EndsWith(Basename(filename), "." + k)
  {
    var e := Extname(filename);
    if e == "" then ""
    else
      assert e == "." + e[1..];
      e[1..]
  }

  /** A basename `stem.ext`, with a non-empty stem and a dot-free extension, is looked up by `ext`. */
  lemma TypeKeyOfDotted(filename: string, stem: string, ext: string)
    requires Basename(filename) == stem + "." + ext
    requires stem != "" && ext != "" && '.' !in ext
    ensures TypeKey(filename) == ext
  {
    ExtnameOfDotted(filename, stem, ext);
    assert ("." + ext)[1..] == ext;
  }

  /** A basename such as ".css", whose only dot comes first, has no key: Node gives it no extension. */
  lemma TypeKeyOfLeadingDot(filename: string, ext: string)
    requires Basename(filename) == "." + ext && '.' !in ext
    ensures TypeKey(filename) == ""
  {
    var b := "." + ext;
    forall j | 0 < j < |b| ensures b[j] != '.' {
      assert b[j] == ext[j - 1];
    }
    assert b[0] == '.';
    assert LastDot(b) == 0;
  }

  /** `serveFile`: the response to a static request, given what reading the file gave. */
  function ServeFile(filename: string, outcome: ReadOutcome): (r: Response)
    ensures outcome.ReadFailed? ==> r.status == ErrorStatus(outcome.code) && r.headers == DefaultHeaders
    ensures outcome.ReadFailed? && r.status == 500 ==> r == ServeError(outcome.errorText)
    ensures outcome.ReadFailed? && outcome.code == Some("ENOENT") ==> r == Serve404()
    ensures outcome.ReadOk? ==> r.status == 200 && r.body == Bytes(outcome.data)
    ensures outcome.ReadOk? ==> r.headers.contentType == ContentType(TypeKey(filename))
    ensures r.headers.cacheControl == CacheControl
  {
    match outcome
    case ReadFailed(code, errorText) =>
      if code == Some("ENOENT") then Serve404() else ServeError(errorText)
    case ReadOk(data) =>
      Response(200, WithBody(ContentType(TypeKey(filename)), |data|), Bytes(data))
  }

  // ---------------------------------------------------------------------
  // serveIndex
  // ---------------------------------------------------------------------

  /**
   * The part of `config` the index page reads: the base URL and
   * `paths.csi`, the directory of the QUnit and RequireJS scripts.
   */
  datatype Config = Config(baseUrl: string, csi: string)

  /** The values the index template is rendered with (the JSON text of the config aside). */
  datatype IndexParams = IndexParams(
    isTest: bool,
    qunitCss: string,
    qunitJs: string,
    requireJs: string,
    extra: string,
    css: Option<string>,
    jsPath: string)

  /**
   * The template as `readIndex` delivers it: compiled into a render
   * function, or the error reading its file gave.
   */
  datatype Template = Compiled(render: IndexParams -> string) | TemplateFailed(errorText: string)

  /** A lower-case copy of an ASCII letter; other characters are their own. */
  function LowerAscii(c: char): (d: char)
    ensures 'A' <= c <= 'Z' ==> d as int == c as int + 32
    ensures !('A' <= c <= 'Z') ==> d == c
  {
    if 'A' <= c <= 'Z' then (c as int + 32) as char else c
  }

  /** The pattern `/test/i` matches `s` at index `i`. */
  predicate TestAt(s: string, i: int) {
    0 <= i && i + 4 <= |s|
    && LowerAscii(s[i]) == 't' && LowerAscii(s[i + 1]) == 'e'
    && LowerAscii(s[i + 2]) == 's' && LowerAscii(s[i + 3]) == 't'
  }

  /** The scan `RegExp.prototype.test` does: try each index in turn. */
  function ContainsTest(s: string): bool
    decreases |s|
  {
    if |s| < 4 then false else TestAt(s, 0) || ContainsTest(s[1..])
  }

  /** `isTest`: the part of the URL before any '?' holds "test" in any case. */
  function IsTest(url: string): (b: bool)
    ensures b <==> exists i :: TestAt(BeforeQuery(url), i)
  {
    ContainsTestFindsMatch(BeforeQuery(url));
    ContainsTest(BeforeQuery(url))
  }

  /** `extra || ''`. */
  function ExtraOrEmpty(extra: Option<string>): string {
    match extra
    case Some(e) => e
    case None => ""
  }

  /** The template parameters `serveIndex` builds. */
  function IndexParamsFor(url: string, jsPath: string, config: Config, extra: Option<string>, css: Option<string>): (p: IndexParams)
    ensures p.isTest == IsTest(url) && p.jsPath == jsPath && p.css == css
    ensures extra.Some? ==> p.extra == extra.value
    ensures extra.None? ==> p.extra == ""
  {
    var csiPath := Join([config.baseUrl, config.csi]);
    IndexParams(
      IsTest(url),
      Join([csiPath, "qunit.css"]),
      Join([csiPath, "qunit.js"]),
      Join([csiPath, "require.js"]),
      ExtraOrEmpty(extra),
      css,
      jsPath)
  }

  /** `serveIndex`: the index page for the module `jsPath`, or 500 when the template could not be read. */
  function ServeIndex(url: string, jsPath: string, config: Config, extra: Option<string>, css: Option<string>, template: Template): (r: Response)
    ensures template.TemplateFailed? ==> r == ServeError(template.errorText)
    ensures template.Compiled? ==> r.status == 200 && r.body.Text?
    ensures template.Compiled? ==> r.body.text == template.render(IndexParamsFor(url, jsPath, config, extra, css))
    ensures template.Compiled? ==> r.headers == WithBody(ContentType("html"), Utf8Length(r.body.text))
  {
    match template
    case TemplateFailed(errorText) => ServeError(errorText)
    case Compiled(render) =>
      var content := render(IndexParamsFor(url, jsPath, config, extra, css));
      Response(200, WithBody(ContentType("html"), Utf8Length(content)), Text(content))
  }

  // ---------------------------------------------------------------------
  // Lemmas
  // ---------------------------------------------------------------------

  /** The scan finds "test" exactly when some index matches. */
  lemma {:induction false} ContainsTestFindsMatch(s: string)
    ensures ContainsTest(s) <==> exists i :: TestAt(s, i)
    decreases |s|
  {
    if |s| >= 4 {
      ContainsTestFindsMatch(s[1..]);
      forall i | TestAt(s[1..], i) ensures TestAt(s, i + 1) {
        assert s[1..][i..i + 4] == s[i + 1..i + 5];
      }
      forall i | TestAt(s, i) && i > 0 ensures TestAt(s[1..], i - 1) {
        assert s[1..][i - 1] == s[i];
      }
    }
  }

  /** The query string never counts: only the text before the first '?' is searched. */
  lemma IsTestIgnoresQuery(path: string, query: string)
    requires '?' !in path
    ensures IsTest(path + "?" + query) == IsTest(path)
  {
    BeforeQueryCutsAtQuery(path, query);
    BeforeQueryOfPlainUrl(path);
  }

  /** A URL without a query that matches `/test/i` at some index is a test page. */
  lemma IsTestAtIndex(url: string, i: int)
    requires '?' !in url && TestAt(url, i)
    ensures IsTest(url)
  {
    BeforeQueryOfPlainUrl(url);
  }

  /** Example: a path with "test" in it is a test page. */
  lemma IsTestExample()
    ensures IsTest("/test/widget")
  {
    var url := "/test/widget";
    assert '?' !in url && TestAt(url, 1) by {
      assert url[1] == 't' && url[2] == 'e' && url[3] == 's' && url[4] == 't';
    }
    IsTestAtIndex(url, 1);
  }

  /** Example: "test" counts in any case. */
  lemma IsTestAnyCaseExample()
    ensures IsTest("/lib/TeSt")
  {
    var url := "/lib/TeSt";
    assert '?' !in url && TestAt(url, 5) by {
      assert url[5] == 'T' && url[6] == 'e' && url[7] == 'S' && url[8] == 't';
    }
    IsTestAtIndex(url, 5);
  }

  /** A URL without a query that matches `/test/i` nowhere is not a test page. */
  lemma NotTestWithoutMatch(url: string)
    requires '?' !in url
    requires forall i :: !TestAt(url, i)
    ensures !IsTest(url)
  {
    BeforeQueryOfPlainUrl(url);
  }

  /** Example: a path without "test" is not a test page. */
  lemma NotTestExample()
    ensures !IsTest("/widget")
  {
    var url := "/widget";
    assert '?' !in url && forall i :: !TestAt(url, i) by {
      assert url[0] == '/' && url[1] == 'w' && url[2] == 'i' && url[3] == 'd';
      forall i | 0 <= i && i + 4 <= |url| ensures LowerAscii(url[i]) != 't' {
      }
    }
    NotTestWithoutMatch(url);
  }

  /** Every character takes one byte exactly when it is ASCII. */
  lemma {:induction false} Utf8LengthOfAscii(s: string)
    ensures Utf8Length(s) == |s| <==> forall i :: 0 <= i < |s| ==> (s[i] as int) < 0x80
    decreases |s|
  {
    if s != [] {
      Utf8LengthOfAscii(s[1..]);
      assert forall i :: 1 <= i < |s| ==> s[1..][i - 1] == s[i];
    }
  }

  /** The UTF-8 length of a concatenation is the sum of the lengths. */
  lemma {:induction false} Utf8LengthConcat(a: string, b: string)
    ensures Utf8Length(a + b) == Utf8Length(a) + Utf8Length(b)
    decreases |a|
  {
    if a != [] {
      Utf8LengthConcat(a[1..], b);
      assert (a + b)[0] == a[0];
      assert (a + b)[1..] == a[1..] + b;
    } else {
      assert a + b == b;
    }
  }

  /** Every response of this module declares the length of its body when it has status 200. */
  lemma SuccessDeclaresLength(filename: string, outcome: ReadOutcome, url: string, jsPath: string,
                              config: Config, extra: Option<string>, css: Option<string>, template: Template)
    ensures var r := ServeFile(filename, outcome);
            r.status == 200 ==> r.headers.contentLength == Some(BodyLength(r.body))
    ensures var r := ServeIndex(url, jsPath, config, extra, css, template);
            r.status == 200 ==> r.headers.contentLength == Some(BodyLength(r.body))
  {
  }

  /**
   * A file whose basename is a stem, a dot and a dot-free extension gets
   * the content type of that extension; other extensions leave it undefined.
   */
  lemma StaticContentType(filename: string, stem: string, ext: string, data: seq<bv8>)
    requires Basename(filename) == stem + "." + ext
    requires stem != "" && ext != "" && '.' !in ext
    ensures ServeFile(filename, ReadOk(data)).headers.contentType == ContentType(ext)
  {
    TypeKeyOfDotted(filename, stem, ext);
  }

  /**
   * The QUnit and RequireJS scripts sit in the `csi` directory under the
   * base URL: their segments are those of the base URL, then those of
   * `paths.csi`, then the script's name.
   */
  lemma IndexScriptsUnderCsi(url: string, jsPath: string, config: Config, extra: Option<string>, css: Option<string>)
    ensures var p := IndexParamsFor(url, jsPath, config, extra, css);
            var dir := Segments(config.baseUrl) + Segments(config.csi);
            && Segments(p.qunitCss) == dir + ["qunit.css"]
            && Segments(p.qunitJs) == dir + ["qunit.js"]
            && Segments(p.requireJs) == dir + ["require.js"]
  {
    var p := IndexParamsFor(url, jsPath, config, extra, css);
    var csiPath := Join([config.baseUrl, config.csi]);
    assert Segments(csiPath) == Segments(config.baseUrl) + Segments(config.csi) by {
      SegmentsOfTwo(config.baseUrl, config.csi);
    }
    assert p.qunitCss == Join([csiPath, "qunit.css"]);
    assert p.qunitJs == Join([csiPath, "qunit.js"]);
    assert p.requireJs == Join([csiPath, "require.js"]);
    ScriptUnder(csiPath, "qunit.css");
    ScriptUnder(csiPath, "qunit.js");
    ScriptUnder(csiPath, "require.js");
  }

  /** A plain file name joined under a directory adds exactly that name as the last segment. */
  lemma ScriptUnder(dir: string, name: string)
    requires name == "qunit.css" || name == "qunit.js" || name == "require.js"
    ensures Segments(Join([dir, name])) == Segments(dir) + [name]
  {
    assert IsSegment(name) && '/' !in name by {
      forall i | 0 <= i < |name| ensures name[i] != '/' {
      }
    }
    SegmentsOfTwo(dir, name);
    SegmentsOfName(name);
  }
}

=== FILE: server.dfy ===
/**
 * One request through `createServer` in server.js: the middleware series,
 * then the routing decision, then the response. The disk, the template and
 * the middlewares' outcomes are inputs, so the whole handler is a function.
 */
module Server {
  import opened Wrappers
  import opened Paths
  import opened Urls
  import opened BaseUrl
  import opened Optimized
  import opened Classifier
  import opened Responders
  import opened Middleware
  import opened Logging

  /** What the handler may ask of the file system. */
  datatype Disk = Disk(fileExists: string -> bool, read: string -> ReadOutcome)

  /** The settings `createServer` is given, before defaults apply. */
  datatype Options = Options(staticDir: Option<string>, baseUrl: Option<string>, csi: string, extra: Option<string>)

  /** What `createServer` keeps for every request: the static root, the merged config and `extra`. */
  datatype Settings = Settings(root: string, config: Config, extra: Option<string>)

  /** A missing static directory means the current one. */
  function StaticDirOrDefault(staticDir: Option<string>): string {
    match staticDir
    case Some(d) => d
    case None => "./"
  }

  /**
   * The default base URL: '/' and the last segment of the resolved static
   * directory. `path.resolve` normalizes an absolute directory and joins a
   * relative one onto `cwd`, the process's working directory.
   */
  function DefaultBaseUrl(cwd: string, staticDir: string): (b: string)
    ensures |b| >= 1 && b[0] == '/' && '/' !in b[1..]
  {
    var resolved := if IsAbsolute(staticDir) then Normalize(staticDir) else Join([cwd, staticDir]);
    "/" + Basename(resolved)
  }

  /** `createServer`'s defaults: "./" for the root, and the default base URL unless one is given. */
  function CreateServer(cwd: string, options: Options): (s: Settings)
    ensures s.root == StaticDirOrDefault(options.staticDir)
    ensures options.baseUrl.Some? ==> s.config.baseUrl == options.baseUrl.value
    ensures options.baseUrl.None? ==> s.config.baseUrl == DefaultBaseUrl(cwd, s.root)
    ensures s.config.csi == options.csi && s.extra == options.extra
  {
    var root := StaticDirOrDefault(options.staticDir);
    var baseUrl := match options.baseUrl
      case Some(b) => b
      case None => DefaultBaseUrl(cwd, root);
    Settings(root, Config(baseUrl, options.csi), options.extra)
  }

  /** The decision for a request: the middlewares first, then `serveRequest`'s classification. */
  function Route(url: string, settings: Settings, steps: seq<Outcome>, fileExists: string -> bool): (d: RouteDecision)
    ensures d.Error? <==> AnyFailed(steps)
    ensures d.MiddlewareHandled? <==> !AnyFailed(steps) && AnyHandled(steps)
    ensures RunChain(steps).Proceed? ==> d == Classify(Pathname(url), settings.root, settings.config.baseUrl, fileExists)
  {
    match RunChain(steps)
    case Abort(e) => Error(e)
    case Intercepted => MiddlewareHandled
    case Proceed => Classify(Pathname(url), settings.root, settings.config.baseUrl, fileExists)
  }

  /** The response a decision leads to; `None` when a middleware answered and the server writes nothing. */
  function Respond(d: RouteDecision, url: string, settings: Settings, template: Template, read: string -> ReadOutcome): (r: Option<Response>)
    ensures r.None? <==> d.MiddlewareHandled?
    ensures d.NotFound? ==> r == Some(Serve404())
    ensures d.Error? ==> r == Some(ServeError(d.message))
    ensures d.StaticFile? ==> r == Some(ServeFile(d.filename, read(d.filename)))
    ensures d.ModuleIndex? ==> r == Some(ServeIndex(url, d.jsPath, settings.config, settings.extra, d.css, template))
  {
    match d
    case ModuleIndex(jsPath, css) => Some(ServeIndex(url, jsPath, settings.config, settings.extra, css, template))
    case StaticFile(filename) => Some(ServeFile(filename, read(filename)))
    case NotFound => Some(Serve404())
    case MiddlewareHandled => None
    case Error(message) => Some(ServeError(message))
  }

  /** The handler `createServer` installs, for one request. */
  function Handle(url: string, settings: Settings, steps: seq<Outcome>, disk: Disk, template: Template): (r: Option<Response>)
    ensures r.None? <==> !AnyFailed(steps) && AnyHandled(steps)
  {
    Respond(Route(url, settings, steps, disk.fileExists), url, settings, template, disk.read)
  }

  /** The colour `writeHead` logs a response in: it never names a colour of its own. */
  function ResponseColour(r: Response, isTty: bool): (c: Colour)
    ensures !c.Named?
  {
    LineColour(r.status, None, isTty)
  }

  // ---------------------------------------------------------------------
  // Lemmas
  // ---------------------------------------------------------------------

  /**
   * The shape every response has: 200, 404 or 500; marked uncacheable; a
   * 200 declares the length of its body; the others use the default
   * plain-text headers, which carry no length.
   */
  predicate WellShaped(r: Response) {
    && (r.status == 200 || r.status == 404 || r.status == 500)
    && r.headers.cacheControl == CacheControl
    && (r.status == 200 ==> r.headers.contentLength == Some(BodyLength(r.body)))
    && (r.status != 200 ==> r.headers == DefaultHeaders)
  }

  /** Every response the server writes is well shaped. */
  lemma ResponseShape(url: string, settings: Settings, steps: seq<Outcome>, disk: Disk, template: Template)
    ensures var r := Handle(url, settings, steps, disk, template);
            r.Some? ==> WellShaped(r.value)
  {
    var d := Route(url, settings, steps, disk.fileExists);
    RespondShape(d, url, settings, template, disk.read);
  }

  lemma RespondShape(d: RouteDecision, url: string, settings: Settings, template: Template, read: string -> ReadOutcome)
    ensures var r := Respond(d, url, settings, template, read);
            r.Some? ==> WellShaped(r.value)
  {
    match d
    case ModuleIndex(jsPath, css) => ServeIndexShape(url, jsPath, settings.config, settings.extra, css, template);
    case StaticFile(filename) => ServeFileShape(filename, read(filename));
    case NotFound =>
    case MiddlewareHandled =>
    case Error(message) =>
  }

  lemma ServeIndexShape(url: string, jsPath: string, config: Config, extra: Option<string>, css: Option<string>, template: Template)
    ensures WellShaped(ServeIndex(url, jsPath, config, extra, css, template))
  {
  }

  lemma ServeFileShape(filename: string, outcome: ReadOutcome)
    ensures WellShaped(ServeFile(filename, outcome))
  {
  }

  /** A failed middleware yields a 500 carrying the first failure's text, whatever the URL and the disk. */
  lemma MiddlewareFailureIs500(url: string, settings: Settings, steps: seq<Outcome>, disk: Disk, template: Template)
    requires AnyFailed(steps)
    ensures Handle(url, settings, steps, disk, template) == Some(ServeError(steps[FirstFailure(steps)].errorText))
  {
  }

  /** Until the series proceeds, neither the disk nor the URL is consulted. */
  lemma InterceptionIgnoresDisk(url1: string, url2: string, settings: Settings, steps: seq<Outcome>,
                                disk1: Disk, disk2: Disk, template: Template)
    requires !RunChain(steps).Proceed?
    ensures Handle(url1, settings, steps, disk1, template) == Handle(url2, settings, steps, disk2, template)
  {
  }

  /**
   * A module request whose script exists gets the index page: status 200,
   * HTML, rendered with the path less its leading separator.
   */
  lemma ModuleRequestServesIndex(url: string, settings: Settings, disk: Disk, render: IndexParams -> string)
    requires IsModuleRequest(Pathname(url))
    requires disk.fileExists(ModuleFilename(settings.root, settings.config.baseUrl, Pathname(url)))
    ensures var r := Handle(url, settings, [], disk, Compiled(render));
            && r.Some? && r.value.status == 200
            && r.value.headers.contentType == Some("text/html")
            && r.value.body.Text?
            && var p := Pathname(url);
               var css := CompanionCss(settings.config.baseUrl, p, ModuleFilename(settings.root, settings.config.baseUrl, p));
               r.value.body.text == render(IndexParamsFor(url, StripLeadingSeparator(p), settings.config, settings.extra, css))
  {
    assert RunChain([]) == Proceed;
  }

  /**
   * With the middlewares out of the way, the answer is 404 exactly when a
   * module's script does not exist or a static file reads back ENOENT.
   */
  lemma NotFoundExactly(url: string, settings: Settings, disk: Disk, template: Template)
    ensures var p := Pathname(url);
            var r := Handle(url, settings, [], disk, template);
            var moduleMissing := IsModuleRequest(p) && !disk.fileExists(ModuleFilename(settings.root, settings.config.baseUrl, p));
            var fileMissing := !IsModuleRequest(p)
              && disk.read(StaticFilename(settings.root, settings.config.baseUrl, p)).ReadFailed?
              && disk.read(StaticFilename(settings.root, settings.config.baseUrl, p)).code == Some("ENOENT");
            r.Some? && (r.value.status == 404 <==> moduleMissing || fileMissing)
  {
    assert RunChain([]) == Proceed;
  }

  /**
   * A static request that reads back data is a 200 whose type is the one
   * its extension names and whose length is that of the data.
   */
  lemma StaticRequestServesData(url: string, settings: Settings, disk: Disk, template: Template)
    requires !IsModuleRequest(Pathname(url))
    requires disk.read(StaticFilename(settings.root, settings.config.baseUrl, Pathname(url))).ReadOk?
    ensures var f := StaticFilename(settings.root, settings.config.baseUrl, Pathname(url));
            var r := Handle(url, settings, [], disk, template);
            && r == Some(ServeFile(f, disk.read(f)))
            && r.value.status == 200
            && r.value.headers.contentType == ContentType(TypeKey(f))
            && r.value.headers.contentLength == Some(|disk.read(f).data|)
  {
    assert RunChain([]) == Proceed;
  }

  /**
   * A static request for `stem.ext` that reads back data is typed by the
   * table entry for `ext`: a page is text/html, a stylesheet text/css and a
   * script application/javascript.
   */
  lemma StaticRequestTypedByExtension(url: string, settings: Settings, disk: Disk, template: Template, stem: string, ext: string)
    requires ext == "html" || ext == "css" || ext == "js"
    requires Pathname(url) == stem + "." + ext && LastPiece(stem) != ""
    requires disk.read(StaticFilename(settings.root, settings.config.baseUrl, Pathname(url))).ReadOk?
    ensures var r := Handle(url, settings, [], disk, template);
            && r.Some? && r.value.status == 200
            && (ext == "html" ==> r.value.headers.contentType == Some("text/html"))
            && (ext == "css" ==> r.value.headers.contentType == Some("text/css"))
            && (ext == "js" ==> r.value.headers.contentType == Some("application/javascript"))
  {
    var p := Pathname(url);
    var f := StaticFilename(settings.root, settings.config.baseUrl, p);
    assert !IsModuleRequest(p) && Extname(f) == "." + ext by {
      TableExtensionIsWord(ext);
      StaticNameExtension(settings.root, settings.config.baseUrl, stem, ext);
    }
    assert TypeKey(f) == ext by {
      assert ("." + ext)[1..] == ext;
    }
    StaticRequestServesData(url, settings, disk, template);
  }

  /**
   * The default base URL is '/' and the last segment of the resolved
   * static directory, or just '/' when that directory is the file-system
   * root. A trailing separator or "." segment does not count.
   */
  lemma DefaultBaseUrlIsLastSegment(cwd: string, staticDir: string)
    requires IsAbsolute(cwd)
    ensures var segs := if IsAbsolute(staticDir) then Segments(staticDir) else Segments(cwd) + Segments(staticDir);
            && (segs == [] ==> DefaultBaseUrl(cwd, staticDir) == "/")
            && (segs != [] ==> DefaultBaseUrl(cwd, staticDir) == "/" + segs[|segs| - 1])
  {
    if IsAbsolute(staticDir) {
      BasenameOfNormalize(staticDir);
    } else {
      ResolvedRelative(cwd, staticDir);
      BasenameOfNormalize(if staticDir == "" then cwd else cwd + "/" + staticDir);
    }
  }

  /** `path.resolve` of a relative directory: the working directory and the directory, normalized. */
  lemma ResolvedRelative(cwd: string, staticDir: string)
    requires IsAbsolute(cwd)
    ensures var q := if staticDir == "" then cwd else cwd + "/" + staticDir;
            && Join([cwd, staticDir]) == Normalize(q)
            && IsAbsolute(q) && Segments(q) == Segments(cwd) + Segments(staticDir)
  {
    JoinTwo(cwd, staticDir);
    if staticDir == "" {
      assert Segments("") == [] by { assert Split("") == [""]; }
    } else {
      ConcatShape(cwd, staticDir);
    }
  }

  /** A static directory given as "/parent/name/." is served under "/name": the "." does not count. */
  lemma DefaultBaseUrlIgnoresDot(cwd: string, parent: string, name: string)
    requires IsSegment(parent) && '/' !in parent
    requires IsSegment(name) && '/' !in name
    ensures DefaultBaseUrl(cwd, "/" + parent + "/" + name + "/.") == "/" + name
  {
    var dir := "/" + parent + "/" + name + "/.";
    assert Segments(dir) == [parent, name] by {
      SegmentsOfNestedDot(parent, name);
    }
    assert IsAbsolute(dir);
    BasenameOfNormalize(dir);
  }

  lemma SegmentsOfNestedDot(parent: string, name: string)
    requires IsSegment(parent) && '/' !in parent
    requires IsSegment(name) && '/' !in name
    ensures Segments("/" + parent + "/" + name + "/.") == [parent, name]
  {
    var tail := name + "/" + ".";
    assert Segments(tail) == [name] by {
      SegmentsOfNameDot(name);
    }
    var mid := parent + "/" + tail;
    assert Segments(mid) == [parent, name] by {
      SegmentsConcat(parent, tail);
      SegmentsOfName(parent);
    }
    assert "/" + parent + "/" + name + "/." == "/" + mid;
    SegmentsOfSlashPrefix(mid);
  }

  lemma SegmentsOfNameDot(name: string)
    requires IsSegment(name) && '/' !in name
    ensures Segments(name + "/" + ".") == [name]
  {
    SegmentsConcat(name, ".");
    SegmentsOfDot();
    SegmentsOfName(name);
    assert [name] + [] == [name];
  }

  /** On a terminal, a response is logged bold red for 500, red for 404 and plainly for 200. */
  lemma LoggedColours(url: string, settings: Settings, steps: seq<Outcome>, disk: Disk, template: Template)
    ensures var r := Handle(url, settings, steps, disk, template);
            r.Some? ==>
              && (r.value.status == 500 <==> ResponseColour(r.value, true) == BoldRed)
              && (r.value.status == 404 <==> ResponseColour(r.value, true) == Red)
              && (r.value.status == 200 <==> ResponseColour(r.value, true) == Plain)
  {
    ResponseShape(url, settings, steps, disk, template);
    var r := Handle(url, settings, steps, disk, template);
  }
}

=== FILE: urls.dfy ===
/** The two ways server.js cuts a request URL short. */
module Urls {

  /** The longest prefix of `s` that holds none of the characters in `stops`. */
  function PrefixBefore(s: string, stops: set<char>): (r: string)
    ensures |r| <= |s| && r == s[..|r|]
    ensures forall i :: 0 <= i < |r| ==> r[i] !in stops
    ensures |r| < |s| ==> s[|r|] in stops
    decreases |s|
  {
    if s == [] || s[0] in stops then ""
    else [s[0]] + PrefixBefore(s[1..], stops)
  }

  /**
   * `url.parse(req.url).pathname` for a request target in origin form:
   * the URL up to its query string or fragment.
   */
  function Pathname(url: string): (r: string)
    ensures |r| <= |url| && r == url[..|r|]
    ensures '?' !in r && '#' !in r
    ensures |r| < |url| ==> url[|r|] == '?' || url[|r|] == '#'
  {
    PrefixBefore(url, {'?', '#'})
  }

  /** `req.url.split('?')[0]`: the URL up to its first '?'. */
  function BeforeQuery(url: string): (r: string)
    ensures |r| <= |url| && r == url[..|r|]
    ensures '?' !in r
    ensures |r| < |url| ==> url[|r|] == '?'
  {
    PrefixBefore(url, {'?'})
  }

  /** A URL without '?' is kept whole. */
  lemma BeforeQueryOfPlainUrl(url: string)
    requires '?' !in url
    ensures BeforeQuery(url) == url
  {
    assert forall i :: 0 <= i < |url| ==> url[i] != '?';
  }

  /** A URL is cut at its first '?'. */
  lemma BeforeQueryCutsAtQuery(path: string, query: string)
    requires '?' !in path
    ensures BeforeQuery(path + "?" + query) == path
  {
    var url := path + "?" + query;
    assert url[|path|] == '?';
    assert forall i :: 0 <= i < |path| ==> url[i] == path[i] != '?';
    assert url[..|path|] == path;
  }
}

=== FILE: wrappers.dfy ===
/** The JavaScript `undefined`-or-value convention of the server, as a datatype. */
module Wrappers {

  /** `None` plays the part of `undefined`; `Some(v)` a defined value. */
  datatype Option<+T> = None | Some(value: T)

  /** True when `s` ends with `suffix`. */
  predicate EndsWith(s: string, suffix: string) {
    |suffix| <= |s| && s[|s| - |suffix|..] == suffix
  }
}
